=== FILE: README.md ===
# Library reports: a Dafny model

This is a Dafny model of a small Laravel + React application that keeps one
report per month for a library. A report holds new books, books borrowed,
new members, total visitors, fines collected and optional notes. The
application validates the submitted figures, stores them in the
`library_reports` table under a unique (year, month) index, and lists,
updates and deletes reports. It also shows per-year totals, a dashboard of
recent reports with quick statistics, and two SVG trend charts.

The model is purely functional. The table is a map from id to report,
together with the next id and an abstract clock. The current year and the
current instant are parameters. Every request handler is a function from
the table (and the request) to a new table and a response.

Modules:

- `Domain`: the report record, the validated payload, month names, the
  period label, and money as integer cents.
- `Validation`: the field rules of the update request.
- `Sorting`: the ordering helpers behind the `ORDER BY` queries.
- `ReportStore`: the table, its invariant and its writes and queries.
- `Aggregates`: per-year sums and chart rows.
- `Controllers`: the index, store, update and destroy actions, and the
  dashboard.
- `Charts`: line-chart and bar-chart geometry, over exact reals.
- `Stats`: the dashboard's quick statistics and a report's activity
  breakdown.

Three facts about the code shape the model:

- Neither chart guards its divisors. The line chart divides by N − 1 and
  by the series maximum, and the bar chart by each series maximum. So
  `Charts.LineChart` and `Charts.BarChart` require those divisors to be
  non-zero.
- The second bar of a month ends 1.05 slot widths plus 2 units past the
  slot's start, so it does not fit in its slot
  (`Charts.CollectionsBarOverrunsSlot`).
- An update that changes no attribute is not saved, so that row's
  `updated_at` stays as it was (`ReportStore.Update`).

## Model

| member | source | states |
|---|---|---|
| Domain.ToCents | app/Models/LibraryReport.php:77 | the stored amount is the submitted amount rounded to whole cents, off by at most half a cent |
| Domain.ToCentsExact | database/migrations/2024_01_01_000003_create_library_reports_table.php:22 | an amount that already has two decimals is stored exactly |
| Domain.MonthName | app/Models/LibraryReport.php:89-95 | the name is "Unknown" exactly when the month lies outside 1..12; otherwise it comes from the table of English names |
| Domain.MonthNameTable | app/Models/LibraryReport.php:89-93 | months 1 to 12 are named January to December |
| Domain.MonthNameUnknown | app/Models/LibraryReport.php:95 | any month outside 1..12 is named "Unknown", and "Unknown" names no month |
| Domain.MonthNameRoundTrip | app/Models/LibraryReport.php:89-93 | reading a month's name back gives the month |
| Domain.MonthNamesDistinct | app/Models/LibraryReport.php:89-93 | different months have different names |
| Domain.NatToString | app/Models/LibraryReport.php:105 | a year's digits are canonical decimal: non-empty, digits only, no leading zero |
| Domain.IntToString | app/Models/LibraryReport.php:105 | an integer is printed in canonical decimal: digits with no leading zero, and a minus sign only before a non-zero negative |
| Domain.IntToStringRoundTrip | app/Models/LibraryReport.php:105 | parsing the year's decimal rendering gives the year back |
| Domain.CanonicalRoundTrip | app/Models/LibraryReport.php:105 | a canonical decimal string is the rendering of the integer it reads as, so the year's text in a period is determined by the year |
| Domain.Period | app/Models/LibraryReport.php:103-106 | the period is the month name, one space, then the year in canonical decimal (no leading zero, a minus sign only when negative) that reads back as the year |
| Domain.PeriodExample | tests/Feature/LibraryReportTest.php:189-198 | month 3 of 2024 is "March" and its period is "March 2024" |
| Validation.CheckIntegerBetween | app/Http/Requests/UpdateLibraryReportRequest.php:25-47 | month and year pass exactly when present, integral and within their bounds; the error is `required` exactly when the value is missing, null or blank, `integer` exactly when a present value is not an integral number, and `between` exactly when an integral number lies outside the bounds |
| Validation.CheckCount | app/Http/Requests/UpdateLibraryReportRequest.php:27-55 | a count passes exactly when present, integral and at least 0; the error is `required` for a missing, null or blank value, `integer` for a present value that is not an integral number, and `min` for a negative integer |
| Validation.CheckAmount | app/Http/Requests/UpdateLibraryReportRequest.php:31-57 | the fine passes exactly when present, numeric and at least 0; the error is `required` for a missing, null or blank value, `numeric` for a present non-number, and `min` for a negative number |
| Validation.CheckNotes | app/Http/Requests/UpdateLibraryReportRequest.php:32-58 | notes pass exactly when absent, null, blank, or a string (numeric text included) of at most 1000 characters; the error is `string` exactly for a present non-null value that is not a string, and `max` exactly for a non-blank string longer than 1000 |
| Validation.CheckField | app/Http/Requests/UpdateLibraryReportRequest.php:24-33 | a field passes its rule list exactly when it meets the declarative acceptance predicate for that field; for a required field the error is `required` exactly when the value is missing, null or blank |
| Validation.Validate | app/Http/Requests/UpdateLibraryReportRequest.php:24-33 | the payload is accepted exactly when every ruled field passes, and then yields the sent values (a blank note written as null) within range; otherwise the error keys are exactly the failing fields, each with the first rule it fails |
| Validation.ValidateIgnoresUnruledKeys | app/Http/Requests/UpdateLibraryReportRequest.php:24-33 | a key without a rule, such as `id` or `created_at`, never changes the validation result |
| Validation.EmptyInputRejected | tests/Feature/LibraryReportTest.php:126-140 | an empty payload fails `required` on each of the seven required fields and on nothing else |
| Validation.NonNumericInputRejected | tests/Feature/LibraryReportTest.php:142-166 | non-numeric text in the seven required fields gives an error on each of them, by type rule |
| Validation.SampleInputAccepted | tests/Feature/LibraryReportTest.php:41-68 | the create test's payload is accepted with exactly its values |
| Validation.NumericNoteAccepted | app/Http/Requests/UpdateLibraryReportRequest.php:32 | a note typed as the number 42 passes the `string` rule and is written as the text "42" |
| ReportStore.Assign | app/Models/LibraryReport.php:54-63 | mass assignment writes the validated values into the eight fillable attributes (the amount rounded to cents, omitted notes kept) and keeps the id and both timestamps |
| ReportStore.AssignNoChange | app/Models/LibraryReport.php:54-63 | an assignment leaves the row unchanged exactly when the row already holds the validated values |
| ReportStore.Create | app/Http/Controllers/LibraryReportController.php:73 | insert fails exactly when a value does not fit its column (a count, month or year beyond 32-bit `integer`, an amount beyond decimal(10,2)) or the period is taken; otherwise the table gains one row under a fresh id holding the values, with both timestamps now |
| ReportStore.Update | app/Http/Controllers/LibraryReportController.php:104 | fails exactly on a missing id, a value that does not fit its column (32-bit `integer` or decimal(10,2)) or a period taken by another row; otherwise only that row changes and keeps its id and created_at; when the row already holds the values the table is returned as it was, `updated_at` included, and otherwise `updated_at` becomes now |
| ReportStore.Delete | app/Http/Controllers/LibraryReportController.php:115 | fails exactly on a missing id; otherwise exactly that id leaves the table and every other row is unchanged |
| ReportStore.Get | app/Http/Controllers/LibraryReportController.php:82-86 | a present id yields its row; a missing id yields not found |
| ReportStore.InYear | app/Models/LibraryReport.php:115-118 | the scope keeps exactly the reports of the year, without repetitions |
| ReportStore.ForYear | app/Http/Controllers/LibraryReportController.php:21-23 | exactly the stored reports of the year, in strictly ascending month order |
| ReportStore.SortedPeriodsAscend | database/migrations/2024_01_01_000003_create_library_reports_table.php:30 | with the unique index, sorting one year's reports by month leaves no ties |
| ReportStore.ForYearAtMostTwelve | app/Http/Controllers/LibraryReportController.php:21-23 | a year lists at most twelve reports when every row is in range |
| ReportStore.AvailableYears | app/Http/Controllers/LibraryReportController.php:25-27 | the years that have a report, each once, strictly descending |
| ReportStore.Recent | app/Http/Controllers/DashboardController.php:19-21 | at most `limit` distinct stored reports, newest first; no omitted report is newer than a kept one; a short list holds every report |
| ReportStore.EmptyValid | database/migrations/2024_01_01_000003_create_library_reports_table.php:14-31 | the freshly created table meets the store invariant and the validator's ranges, and lists no rows |
| ReportStore.GetAfterCreate | app/Http/Controllers/LibraryReportController.php:73-75 | the created report reads back unchanged under its new id |
| ReportStore.CreateTwiceFails | database/migrations/2024_01_01_000003_create_library_reports_table.php:30 | a second insert for the same (year, month) fails with a duplicate error |
| ReportStore.DeleteRemovesFromListing | app/Http/Controllers/LibraryReportController.php:115 | after a delete the id is not found and the year listing drops that report and keeps all others |
| ReportStore.UpdateScenario | tests/Feature/LibraryReportTest.php:84-110 | an update reads back with the new counts, its created_at kept and updated_at not earlier than before |
| ReportStore.UpdateLeavesOthers | app/Http/Controllers/LibraryReportController.php:104 | an update leaves every other row untouched |
| ReportStore.WritesPreserveDomain | app/Http/Requests/UpdateLibraryReportRequest.php:25-32 | writes of validated values keep every row within the validator's ranges |
| Aggregates.SumAppend | app/Http/Controllers/LibraryReportController.php:30-36 | a column's sum over two lists joined is the sum of the two sums |
| Aggregates.YearTotals | app/Http/Controllers/LibraryReportController.php:30-36 | each total is the column's sum over the listed reports |
| Aggregates.CountedYearTotals | app/Http/Controllers/DashboardController.php:29-36 | the same sums, and the count is the number of reports |
| Aggregates.EmptyTotals | app/Http/Controllers/DashboardController.php:29-36 | no reports give all-zero totals and a zero count |
| Aggregates.TotalsAppend | app/Http/Controllers/LibraryReportController.php:30-36 | totals of a joined list are the field-wise sum of the parts' totals; counts add up |
| Aggregates.TotalsCommute | app/Http/Controllers/LibraryReportController.php:30-36 | totals do not depend on the order of the two parts |
| Aggregates.SumPermutation | app/Http/Controllers/LibraryReportController.php:30-36 | a column's sum is the same for any reordering of the reports |
| Aggregates.TotalsPermutation | app/Http/Controllers/LibraryReportController.php:30-36 | totals are the same for any reordering of the reports |
| Aggregates.ToChartRow | app/Http/Controllers/LibraryReportController.php:40-48 | a chart row copies month, counts and amount, and names the month |
| Aggregates.ChartRows | app/Http/Controllers/LibraryReportController.php:39-49 | one chart row per report, at the same position |
| Aggregates.PresentsUnique | app/Http/Controllers/LibraryReportController.php:40-48 | a chart row is fully determined by the report it presents |
| Aggregates.ChartRowsKeepOrder | app/Http/Controllers/DashboardController.php:39-49 | chart rows keep the ascending month order of the reports |
| Aggregates.ChartRowsAppend | app/Http/Controllers/DashboardController.php:39-49 | mapping reports to chart rows commutes with joining lists |
| Aggregates.ChartFinesMatchTotal | app/Http/Controllers/LibraryReportController.php:35-47 | the chart's amounts add up to the fine total |
| Controllers.Index | app/Http/Controllers/LibraryReportController.php:17-57 | the selected year defaults to the current one; lists exactly its reports by ascending month (at most 12); years strictly descending and complete; totals and chart rows match the list |
| Controllers.Dashboard | app/Http/Controllers/DashboardController.php:14-56 | the six newest reports, distinct and newest first; totals, count and chart rows of exactly the current year's reports |
| Controllers.EmptyYearViews | app/Http/Controllers/DashboardController.php:29-36 | a year without reports shows no rows, zero totals, a zero count and no chart rows |
| Controllers.StoreReport | app/Http/Controllers/LibraryReportController.php:71-77 | an acceptable payload fails exactly when a value does not fit its column (out of range: a count above 2,147,483,647, which the `integer` and `min:0` rules admit, or an amount beyond decimal(10,2)) or its period is taken (duplicate), and is otherwise stored as exactly one new row holding the validated values; the response is never a deletion; rejected input or a failed insert leaves the table as it was |
| Controllers.UpdateReport | app/Http/Controllers/LibraryReportController.php:102-108 | not found exactly for a missing id, before validation; for a present id and acceptable payload, failure exactly on a value that does not fit its column (a count above 2,147,483,647 or an amount beyond decimal(10,2)) or a period held by another row, otherwise only that row changes; the response is never a deletion; rejected input or a failed write changes nothing |
| Controllers.DestroyReport | app/Http/Controllers/LibraryReportController.php:113-119 | deletes exactly that id or reports not found, and keeps every other row |
| Controllers.AcceptedInputCanStillCollide | app/Http/Requests/UpdateLibraryReportRequest.php:24-33 | a payload that was accepted and stored once is refused as a duplicate, with the table unchanged, when sent again |
| Controllers.IndexListsWholeYear | app/Http/Controllers/LibraryReportController.php:21-23 | a year holding exactly months 1 to 6 lists six rows, January to June |
| Controllers.MonthsFillRange | app/Http/Controllers/LibraryReportController.php:21-23 | strictly ascending months that cover 1..n and nothing else are exactly 1, 2, …, n |
| Charts.MaxOf | resources/js/components/simple-charts.tsx:21-23 | the maximum bounds every value and is one of them |
| Charts.LineMax | resources/js/components/simple-charts.tsx:21-23 | the common scale bounds new books, books borrowed and new members at every point and equals one of them |
| Charts.PointXRange | resources/js/components/simple-charts.tsx:29-35 | the first point is at x = 40, the last at 640, all in between |
| Charts.PointXIncreasing | resources/js/components/simple-charts.tsx:29-35 | x strictly increases with the point index |
| Charts.PointYRange | resources/js/components/simple-charts.tsx:30-36 | the maximum is drawn at y = 40, zero on the baseline, and every value in between |
| Charts.PointYDecreasing | resources/js/components/simple-charts.tsx:30-36 | a larger value is drawn at a smaller y |
| Charts.Path | resources/js/components/simple-charts.tsx:29-40 | point i is at x = 40 + i·600/(N − 1) and at the y of its value on the common scale; one command per point, a move then lines, from x = 40 to 640; larger values higher; all points inside the band |
| Charts.PathGeometry | resources/js/components/simple-charts.tsx:32-40 | the evenly spaced, scaled points of a path have the shape, order and band above |
| Charts.LineChart | resources/js/components/simple-charts.tsx:18-40 | nothing is drawn exactly for no data; otherwise three paths whose points sit at the evenly spaced x and at the y of their series on the common scale of the largest value, each ordered by its series and inside [40, height − 40] |
| Charts.StandingBar | resources/js/components/simple-charts.tsx:161-175 | a bar's bottom edge is on the baseline |
| Charts.BarHeightRange | resources/js/components/simple-charts.tsx:155-156 | a bar's height lies in [0, 0.8 · chart height]: full for the series maximum, zero for zero |
| Charts.BarChart | resources/js/components/simple-charts.tsx:120-178 | nothing exactly for no data; otherwise one pair of bars per month at the coded x positions and widths, standing on the baseline, each of height value / series maximum · 0.8 · inner height, within bounds |
| Charts.ChartRowFinesNonNegative | app/Http/Controllers/LibraryReportController.php:47 | chart rows built from stored reports carry non-negative amounts |
| Charts.BarHeightsBounded | resources/js/components/simple-charts.tsx:155-156 | every bar of the chart is at most 0.8 of the chart height |
| Charts.VisitorsBarInsideSlot | resources/js/components/simple-charts.tsx:154-167 | every month's visitors bar spans 0.25 to 0.65 of its slot |
| Charts.CollectionsBarOverrunsSlot | resources/js/components/simple-charts.tsx:168-175 | every month's collections bar ends 1.05 slots plus 2 units past the slot start, beyond the slot |
| Charts.BarsClearNextSlot | resources/js/components/simple-charts.tsx:130-175 | a month's collections bar stops short of the next month's visitors bar exactly when the chart has fewer than 60 months |
| Charts.BarsInsideViewBox | resources/js/components/simple-charts.tsx:135-175 | every bar of the chart lies horizontally inside the 680-unit view box |
| Stats.RoundedQuotient | resources/js/pages/dashboard.tsx:286-288 | integer rounding of a / b is within half a unit of the exact quotient |
| Stats.RoundedQuotientUnique | resources/js/pages/dashboard.tsx:286-288 | any integer within half a unit of the quotient is the rounded result |
| Stats.AveragePerReport | resources/js/pages/dashboard.tsx:286-297 | zero without reports; otherwise the nearest whole number to total / count |
| Stats.AverageRevenue | resources/js/pages/dashboard.tsx:304-306 | zero without reports; otherwise the nearest whole number to the fine total in currency units divided by the count |
| Stats.ReportActivity | resources/js/pages/library-reports/show.tsx:41 | total activity is books activity plus people activity, and counts the four count columns but not the fine |
| Stats.YearActivityIsReportActivity | resources/js/pages/dashboard.tsx:314 | the year's total activity equals the sum of its reports' activity |
| Stats.QuickStatsOf | resources/js/pages/dashboard.tsx:278-317 | reports count, and books, members and revenue averages each within half a unit of the exact average (all zero without reports); total activity is the sum of the four count totals |
| Stats.DashboardStats | resources/js/pages/dashboard.tsx:278-317 | the panel counts the current year's reports and its activity is the sum of theirs |
| Stats.AverageWithinRange | resources/js/pages/dashboard.tsx:286-297 | a monthly average lies between the smallest and largest monthly value |
| Stats.AverageOfConstant | resources/js/pages/dashboard.tsx:286-297 | equal monthly values average to that value |
| Stats.AverageRoundsHalfUp | resources/js/pages/dashboard.tsx:286-306 | a half rounds up: 27.5 shows as 28 and 125.50 as 126 |

## Left out

- Framework plumbing is not modelled: Inertia rendering, redirects and flash messages, authentication and `authorize()`. Responses are reduced to a `Response` value. Route model binding becomes a not-found error.
- Real timestamps are replaced by an abstract clock. Every write is given `now` no earlier than the store's last instant.
- Concurrent requests racing on the unique index are not modelled. Writes are sequential.
- Secondary indexes are left out; they only affect performance.
- Floating point is not modelled. Money is integer cents, and averages and chart geometry use exact rationals. PHP's float sums, the `(float)` casts and IEEE rounding are left out.
- NaN and Infinity from the unguarded divisions are not modelled. The non-zero divisors are preconditions instead.
- Charts.LineChart: requires at least two points and a positive scale. With one point, or all values zero, the code divides by zero.
- Charts.BarChart: requires both series maxima to be positive, for the same reason. Its height bounds are stated only for a chart at least 80 units tall and for non-negative amounts.
- SVG markup is left out: grid lines, axis labels, legends, colours and `toLocaleString` formatting.
- The create request's own rule class is not part of this model. `Controllers.StoreReport` applies the update request's rules. The feature tests are consistent with that.
- The four count columns default to 0 in the table. That default is not modelled, because every validated write supplies all four counts.
- Column widths are those of a database that enforces them, such as MySQL in strict mode or PostgreSQL: a count above 2,147,483,647 passes validation and is then refused by the insert or update. A database that ignores declared widths, as SQLite does, would store what the model refuses as `OutOfRange`.
- Parsing numeric strings is not modelled. A string that reads as a number arrives as `NumericText`, holding both its text and its number; `Text` stands for a string that is not numeric.
- Validation.CheckIntegerBetween: accepts every integral number, including one sent as the string "3.0" or "1e1". The framework's `integer` rule checks the raw string and rejects those. The same holds for Validation.CheckCount.
- Validation.CheckCount: see the line above.
- Validation.CheckNotes: the request middleware that trims strings and turns empty ones into null is not modelled. A blank note passes and is written as null, as that middleware would make it. A note with surrounding whitespace is measured and stored untrimmed.
- Controllers.StoreReport: `Failed(Duplicate)` and `Failed(OutOfRange)` stand for a database exception that the controller does not catch. The client sees a server error (HTTP 500), not a validation message. The same holds for Controllers.UpdateReport.
- Controllers.UpdateReport: see the line above.
- Validation.Validate: records one rule per failing field, the first that fails, where the framework keeps every failing rule's message. The set of failing fields is the same.
- ReportStore.UpdateScenario: states that `updated_at` does not go backwards, not that it strictly advances, since the abstract clock may give the same instant twice.
- Stats.AverageRevenue: averages the exact cent total. The page divides a float sum.
- Presentation pages outside the quick-stats panel and the activity breakdown are left out: the welcome page, the index table, and the create and edit forms.
- Fixtures are left out: the seeder, the factory and the architecture tests.

=== FILE: aggregates.dfy ===
/** Per-year totals and chart rows, computed from a list of reports.
    Money is summed in whole cents, so totals carry no rounding drift. */
module Aggregates {
  import opened Domain
  import opened Sorting

  /** The five numeric columns a report carries. */
  datatype Column = NewBooks | BooksBorrowed | NewMembers | TotalVisitors | FineCollections

  function ValueOf(r: Report, c: Column): nat {
    match c
    case NewBooks => r.newBooks
    case BooksBorrowed => r.booksBorrowed
    case NewMembers => r.newMembers
    case TotalVisitors => r.totalVisitors
    case FineCollections => r.fineCents
  }

  /** The collection `sum` of one column. */
  function Sum(rs: seq<Report>, c: Column): nat {
    if rs == [] then 0 else ValueOf(rs[0], c) + Sum(rs[1..], c)
  }

  lemma {:induction false} SumAppend(a: seq<Report>, b: seq<Report>, c: Column)
    ensures Sum(a + b, c) == Sum(a, c) + Sum(b, c)
  {
    if a == [] {
      assert a + b == b;
    } else {
      assert (a + b)[1..] == a[1..] + b;
      SumAppend(a[1..], b, c);
    }
  }

  /** The totals of the report index page. */
  datatype Totals = Totals(
    newBooks: nat, booksBorrowed: nat, newMembers: nat, totalVisitors: nat, fineCents: nat)

  /** The dashboard's totals, which also count the reports. */
  datatype CountedTotals = CountedTotals(totals: Totals, reportsCount: nat)

  const Zero: Totals := Totals(0, 0, 0, 0, 0)

  function Add(t: Totals, u: Totals): Totals {
    Totals(t.newBooks + u.newBooks, t.booksBorrowed + u.booksBorrowed,
           t.newMembers + u.newMembers, t.totalVisitors + u.totalVisitors,
           t.fineCents + u.fineCents)
  }

  function TotalOf(t: Totals, c: Column): nat {
    match c
    case NewBooks => t.newBooks
    case BooksBorrowed => t.booksBorrowed
    case NewMembers => t.newMembers
    case TotalVisitors => t.totalVisitors
    case FineCollections => t.fineCents
  }

  /** Per-column sums over the listed reports. */
  function YearTotals(rs: seq<Report>): (t: Totals)
    ensures forall c: Column :: TotalOf(t, c) == Sum(rs, c)
  {
    Totals(Sum(rs, NewBooks), Sum(rs, BooksBorrowed), Sum(rs, NewMembers),
           Sum(rs, TotalVisitors), Sum(rs, FineCollections))
  }

  /** The same sums plus the number of reports they cover. */
  function CountedYearTotals(rs: seq<Report>): (t: CountedTotals)
    ensures forall c: Column :: TotalOf(t.totals, c) == Sum(rs, c)
    ensures t.reportsCount == |rs|
  {
    CountedTotals(YearTotals(rs), |rs|)
  }

  /** No reports, no activity. */
  lemma EmptyTotals()
    ensures YearTotals([]) == Zero
    ensures CountedYearTotals([]) == CountedTotals(Zero, 0)
  {
  }

  /** Totals of a split list add up: summing is compatible with any
      partition into a prefix and a suffix. */
  lemma TotalsAppend(a: seq<Report>, b: seq<Report>)
    ensures YearTotals(a + b) == Add(YearTotals(a), YearTotals(b))
    ensures CountedYearTotals(a + b).reportsCount ==
            CountedYearTotals(a).reportsCount + CountedYearTotals(b).reportsCount
  {
    SumAppend(a, b, NewBooks);
    SumAppend(a, b, BooksBorrowed);
    SumAppend(a, b, NewMembers);
    SumAppend(a, b, TotalVisitors);
    SumAppend(a, b, FineCollections);
  }

  /** The order of the two parts does not matter. */
  lemma TotalsCommute(a: seq<Report>, b: seq<Report>)
    ensures YearTotals(a + b) == YearTotals(b + a)
  {
    TotalsAppend(a, b);
    TotalsAppend(b, a);
  }

  /** Taking one report out of a list takes its value out of the sum. */
  lemma SumRemove(b: seq<Report>, k: nat, c: Column)
    requires k < |b|
    ensures Sum(b, c) == ValueOf(b[k], c) + Sum(b[..k] + b[k + 1..], c)
  {
    assert b == b[..k] + ([b[k]] + b[k + 1..]);
    SumAppend(b[..k], [b[k]] + b[k + 1..], c);
    SumAppend([b[k]], b[k + 1..], c);
    SumAppend(b[..k], b[k + 1..], c);
  }

  lemma {:induction false} SumPermutation(a: seq<Report>, b: seq<Report>, c: Column)
    requires multiset(a) == multiset(b)
    ensures Sum(a, c) == Sum(b, c)
    decreases |a|
  {
    if a == [] {
      assert b == [] by {
        assert |b| == |multiset(b)| == |multiset(a)|;
      }
    } else {
      var x := a[0];
      var k :| 0 <= k < |b| && b[k] == x by {
        assert x in multiset(b);
      }
      var rest := b[..k] + b[k + 1..];
      assert multiset(a[1..]) == multiset(rest) by {
        RemoveAt(a, 0);
        RemoveAt(b, k);
        assert a[..0] + a[1..] == a[1..];
      }
      SumPermutation(a[1..], rest, c);
      SumRemove(b, k, c);
      assert Sum(a, c) == ValueOf(x, c) + Sum(a[1..], c);
      assert Sum(b, c) == ValueOf(x, c) + Sum(rest, c);
    }
  }

  /** Totals are unchanged by any reordering of the reports. */
  lemma TotalsPermutation(a: seq<Report>, b: seq<Report>)
    requires multiset(a) == multiset(b)
    ensures YearTotals(a) == YearTotals(b)
  {
    SumPermutation(a, b, NewBooks);
    SumPermutation(a, b, BooksBorrowed);
    SumPermutation(a, b, NewMembers);
    SumPermutation(a, b, TotalVisitors);
    SumPermutation(a, b, FineCollections);
  }

  // ---------------------------------------------------------------------
  // Chart rows

  /** One chart point: the month, its name, the four counts and the fine
      amount as a plain number. */
  datatype ChartRow = ChartRow(
    month: int,
    monthName: string,
    newBooks: nat,
    booksBorrowed: nat,
    newMembers: nat,
    totalVisitors: nat,
    fineCollections: real)

  /** Whether `row` presents report `r`. */
  predicate Presents(row: ChartRow, r: Report) {
    && row.month == r.month
    && row.monthName == MonthName(r.month)
    && row.newBooks == r.newBooks && row.booksBorrowed == r.booksBorrowed
    && row.newMembers == r.newMembers && row.totalVisitors == r.totalVisitors
    && row.fineCollections * 100.0 == r.fineCents as real
  }

  function ToChartRow(r: Report): (row: ChartRow)
    ensures Presents(row, r)
  {
    ChartRow(r.month, MonthName(r.month), r.newBooks, r.booksBorrowed,
             r.newMembers, r.totalVisitors, r.fineCents as real / 100.0)
  }

  /** One row per report, in the reports' order. */
  function ChartRows(rs: seq<Report>): (rows: seq<ChartRow>)
    ensures |rows| == |rs|
    ensures forall i :: 0 <= i < |rs| ==> Presents(rows[i], rs[i])
  {
    if rs == [] then [] else [ToChartRow(rs[0])] + ChartRows(rs[1..])
  }

  /** Chart rows keep the reports' month order: ascending months in, the
      same ascending months out. */
  lemma ChartRowsKeepOrder(rs: seq<Report>)
    requires forall i, j :: 0 <= i < j < |rs| ==> rs[i].month < rs[j].month
    ensures forall i, j :: 0 <= i < j < |rs| ==> ChartRows(rs)[i].month < ChartRows(rs)[j].month
  {
  }

  /** A chart row is fully determined by the report it presents. */
  lemma PresentsUnique(row: ChartRow, other: ChartRow, r: Report)
    requires Presents(row, r) && Presents(other, r)
    ensures row == other
  {
    assert row.fineCollections == other.fineCollections;
  }

  /** Mapping distributes over concatenation. */
  lemma ChartRowsAppend(a: seq<Report>, b: seq<Report>)
    ensures ChartRows(a + b) == ChartRows(a) + ChartRows(b)
  {
    var joined := ChartRows(a + b);
    var parts := ChartRows(a) + ChartRows(b);
    forall i | 0 <= i < |joined| ensures joined[i] == parts[i] {
      if i < |a| {
        PresentsUnique(joined[i], parts[i], a[i]);
      } else {
        PresentsUnique(joined[i], parts[i], b[i - |a|]);
      }
    }
  }

  /** The chart's amounts are the stored cents read as currency units, and
      the sum of the chart's amounts is the fine total in cents. */
  lemma {:induction false} ChartFinesMatchTotal(rs: seq<Report>)
    ensures ChartFineSum(ChartRows(rs)) * 100.0 == YearTotals(rs).fineCents as real
  {
    if rs != [] {
      ChartFinesMatchTotal(rs[1..]);
    }
  }

  function ChartFineSum(rows: seq<ChartRow>): real {
    if rows == [] then 0.0 else rows[0].fineCollections + ChartFineSum(rows[1..])
  }
}

=== FILE: charts.dfy ===
/** Geometry of the two trend charts: where the line chart puts its points
    and where the bar chart puts its rectangles, in the SVG's user units.
    Arithmetic is exact (`real`). The drawing code divides by N - 1 and by
    the series maxima without a guard, so those divisors being non-zero is
    a precondition here. */
module Charts {
  import opened Domain
  import opened Aggregates

  const Padding: real := 40.0
  const ChartWidth: real := 600.0

  /** Width of the SVG view box: the drawing area plus padding each side. */
  const ViewBoxWidth: real := ChartWidth + 2.0 * Padding

  /** Height of the drawing area for a chart `height` units tall. */
  function InnerHeight(height: real): real {
    height - 2.0 * Padding
  }

  function Max(a: real, b: real): real {
    if a >= b then a else b
  }

  /** `Math.max(...xs)` on a non-empty list: an upper bound that is one of
      the values. */
  function MaxOf(xs: seq<real>): (m: real)
    requires |xs| > 0
    ensures forall i :: 0 <= i < |xs| ==> xs[i] <= m
    ensures exists i :: 0 <= i < |xs| && xs[i] == m
  {
    if |xs| == 1 then xs[0]
    else
      var rest := MaxOf(xs[1..]);
      assert forall i :: 1 <= i < |xs| ==> xs[i] == xs[1..][i - 1];
      Max(xs[0], rest)
  }

  // ---------------------------------------------------------------------
  // Line chart

  function BookPeaks(data: seq<ChartRow>): (vs: seq<real>)
    ensures |vs| == |data|
    ensures forall i :: 0 <= i < |data| ==>
      vs[i] == Max(data[i].newBooks as real, data[i].booksBorrowed as real)
  {
    seq(|data|, i requires 0 <= i < |data| => Max(data[i].newBooks as real, data[i].booksBorrowed as real))
  }

  function Members(data: seq<ChartRow>): (vs: seq<real>)
    ensures |vs| == |data|
    ensures forall i :: 0 <= i < |data| ==> vs[i] == data[i].newMembers as real
  {
    seq(|data|, i requires 0 <= i < |data| => data[i].newMembers as real)
  }

  /** Whether one of the three line-chart values of `row` equals `v`. */
  predicate LineValue(row: ChartRow, v: real) {
    v == row.newBooks as real || v == row.booksBorrowed as real || v == row.newMembers as real
  }

  /** The line chart's common scale: the largest of new books, books
      borrowed and new members over all points. */
  function LineMax(data: seq<ChartRow>): (m: real)
    requires |data| > 0
    ensures forall i :: 0 <= i < |data| ==>
      && data[i].newBooks as real <= m
      && data[i].booksBorrowed as real <= m
      && data[i].newMembers as real <= m
    ensures exists i :: 0 <= i < |data| && LineValue(data[i], m)
  {
    var books := MaxOf(BookPeaks(data));
    var members := MaxOf(Members(data));
    assert forall i :: 0 <= i < |data| ==> BookPeaks(data)[i] <= books;
    Max(books, members)
  }

  /** x of point `i` of `n`: the points are spread evenly over the drawing
      width. */
  function PointX(i: nat, n: nat): real
    requires n >= 2
  {
    Padding + i as real * (ChartWidth / (n - 1) as real)
  }

  /** y of a value: the scale maps `maxValue` to the top of the drawing
      area and zero to its bottom. */
  function PointY(v: real, maxValue: real, inner: real): real
    requires maxValue > 0.0
  {
    Padding + inner - v * (inner / maxValue)
  }

  lemma PointXRange(i: nat, n: nat)
    requires n >= 2 && i < n
    ensures PointX(0, n) == Padding
    ensures PointX(n - 1, n) == Padding + ChartWidth
    ensures Padding <= PointX(i, n) <= Padding + ChartWidth
  {
    var step := ChartWidth / (n - 1) as real;
    assert (n - 1) as real * step == ChartWidth;
    assert i as real * step <= (n - 1) as real * step;
  }

  lemma PointXIncreasing(i: nat, j: nat, n: nat)
    requires n >= 2 && i < j
    ensures PointX(i, n) < PointX(j, n)
  {
    var step := ChartWidth / (n - 1) as real;
    assert step > 0.0;
    assert i as real * step < j as real * step;
  }

  /** The maximum sits on the top edge, zero on the baseline, and every
      value in between inside the band. */
  lemma PointYRange(v: real, maxValue: real, inner: real)
    requires maxValue > 0.0 && inner >= 0.0
    requires 0.0 <= v <= maxValue
    ensures PointY(maxValue, maxValue, inner) == Padding
    ensures PointY(0.0, maxValue, inner) == Padding + inner
    ensures Padding <= PointY(v, maxValue, inner) <= Padding + inner
  {
    var scale := inner / maxValue;
    assert maxValue * scale == inner;
    assert 0.0 <= v * scale <= maxValue * scale;
  }

  /** A larger value is drawn higher up, that is, at a smaller y. */
  lemma PointYDecreasing(v: real, w: real, maxValue: real, inner: real)
    requires maxValue > 0.0 && inner > 0.0 && v < w
    ensures PointY(w, maxValue, inner) < PointY(v, maxValue, inner)
  {
    var scale := inner / maxValue;
    assert scale > 0.0;
    assert v * scale < w * scale;
  }

  datatype PathOp = MoveTo | LineTo

  /** One command of an SVG path: "M x y" or "L x y". */
  datatype PathCommand = PathCommand(op: PathOp, x: real, y: real)

  /** One command per point: a move to the first, lines to the rest, at
      increasing x from the left edge to the right edge of the drawing. */
  predicate PathShape(p: seq<PathCommand>, n: nat) {
    && |p| == n
    && n >= 2
    && p[0].op == MoveTo
    && (forall i :: 1 <= i < n ==> p[i].op == LineTo)
    && p[0].x == Padding
    && p[n - 1].x == Padding + ChartWidth
    && (forall i, j :: 0 <= i < j < n ==> p[i].x < p[j].x)
  }

  /** Larger values of the series sit strictly higher. */
  predicate FollowsValues(p: seq<PathCommand>, values: seq<real>) {
    |p| == |values| &&
    forall i, j :: 0 <= i < |values| && 0 <= j < |values| && values[i] < values[j] ==> p[j].y < p[i].y
  }

  predicate WithinBand(p: seq<PathCommand>, top: real, bottom: real) {
    forall i :: 0 <= i < |p| ==> top <= p[i].y <= bottom
  }

  /** Point `i` of the path is drawn at the evenly spaced x of index `i`
      and at the y of `values[i]` on the scale of `maxValue`. */
  predicate OnScale(p: seq<PathCommand>, values: seq<real>, maxValue: real, inner: real) {
    && |p| == |values| >= 2
    && maxValue > 0.0
    && forall i :: 0 <= i < |values| ==>
         p[i].x == PointX(i, |values|) && p[i].y == PointY(values[i], maxValue, inner)
  }

  /** `createPath`: the path through one series. */
  function Path(values: seq<real>, maxValue: real, inner: real): (p: seq<PathCommand>)
    requires |values| >= 2 && maxValue > 0.0
    requires forall i :: 0 <= i < |values| ==> 0.0 <= values[i] <= maxValue
    ensures PathShape(p, |values|)
    ensures OnScale(p, values, maxValue, inner)
    ensures inner > 0.0 ==> FollowsValues(p, values)
    ensures inner >= 0.0 ==> WithinBand(p, Padding, Padding + inner)
  {
    var n := |values|;
    var p := seq(n, i requires 0 <= i < n =>
      PathCommand(if i == 0 then MoveTo else LineTo, PointX(i, n), PointY(values[i], maxValue, inner)));
    PathGeometry(values, maxValue, inner, p);
    p
  }

  lemma PathGeometry(values: seq<real>, maxValue: real, inner: real, p: seq<PathCommand>)
    requires |values| >= 2 && maxValue > 0.0
    requires forall i :: 0 <= i < |values| ==> 0.0 <= values[i] <= maxValue
    requires |p| == |values|
    requires forall i :: 0 <= i < |p| ==>
      p[i] == PathCommand(if i == 0 then MoveTo else LineTo, PointX(i, |p|), PointY(values[i], maxValue, inner))
    ensures PathShape(p, |values|)
    ensures OnScale(p, values, maxValue, inner)
    ensures inner > 0.0 ==> FollowsValues(p, values)
    ensures inner >= 0.0 ==> WithinBand(p, Padding, Padding + inner)
  {
    var n := |values|;
    PointXRange(0, n);
    forall i, j | 0 <= i < j < n ensures p[i].x < p[j].x {
      PointXIncreasing(i, j, n);
    }
    if inner > 0.0 {
      forall i, j | 0 <= i < n && 0 <= j < n && values[i] < values[j] ensures p[j].y < p[i].y {
        PointYDecreasing(values[i], values[j], maxValue, inner);
      }
    }
    if inner >= 0.0 {
      forall i | 0 <= i < n ensures Padding <= p[i].y <= Padding + inner {
        PointYRange(values[i], maxValue, inner);
      }
    }
  }

  /** The three lines of the line chart. */
  datatype LineDrawing = LineDrawing(
    newBooks: seq<PathCommand>, newMembers: seq<PathCommand>, booksBorrowed: seq<PathCommand>)

  function NewBooksValues(data: seq<ChartRow>): (vs: seq<real>)
    ensures |vs| == |data|
    ensures forall i :: 0 <= i < |data| ==> vs[i] == data[i].newBooks as real
  {
    seq(|data|, i requires 0 <= i < |data| => data[i].newBooks as real)
  }

  function BooksBorrowedValues(data: seq<ChartRow>): (vs: seq<real>)
    ensures |vs| == |data|
    ensures forall i :: 0 <= i < |data| ==> vs[i] == data[i].booksBorrowed as real
  {
    seq(|data|, i requires 0 <= i < |data| => data[i].booksBorrowed as real)
  }

  /** `SimpleLineChart`: nothing for no data; otherwise one path per
      series, all on the common scale. */
  function LineChart(data: seq<ChartRow>, height: real): (r: Option<LineDrawing>)
    requires data == [] || (|data| >= 2 && LineMax(data) > 0.0)
    ensures r.None? <==> data == []
    ensures r.Some? ==>
      && PathShape(r.value.newBooks, |data|)
      && PathShape(r.value.newMembers, |data|)
      && PathShape(r.value.booksBorrowed, |data|)
    ensures r.Some? ==>
      var m := LineMax(data);
      var inner := InnerHeight(height);
      && OnScale(r.value.newBooks, NewBooksValues(data), m, inner)
      && OnScale(r.value.newMembers, Members(data), m, inner)
      && OnScale(r.value.booksBorrowed, BooksBorrowedValues(data), m, inner)
    ensures r.Some? && height > 2.0 * Padding ==>
      && FollowsValues(r.value.newBooks, NewBooksValues(data))
      && FollowsValues(r.value.newMembers, Members(data))
      && FollowsValues(r.value.booksBorrowed, BooksBorrowedValues(data))
    ensures r.Some? && height >= 2.0 * Padding ==>
      && WithinBand(r.value.newBooks, Padding, height - Padding)
      && WithinBand(r.value.newMembers, Padding, height - Padding)
      && WithinBand(r.value.booksBorrowed, Padding, height - Padding)
  {
    if data == [] then None
    else
      var m := LineMax(data);
      var inner := InnerHeight(height);
      Some(LineDrawing(
        Path(NewBooksValues(data), m, inner),
        Path(Members(data), m, inner),
        Path(BooksBorrowedValues(data), m, inner)))
  }

  // ---------------------------------------------------------------------
  // Bar chart

  /** A rectangle: left edge, top edge, width, height. */
  datatype Rect = Rect(x: real, y: real, width: real, height: real)

  /** The two bars drawn for one month. */
  datatype BarPair = BarPair(visitors: Rect, collections: Rect)

  function Visitors(data: seq<ChartRow>): (vs: seq<real>)
    ensures |vs| == |data|
    ensures forall i :: 0 <= i < |data| ==> vs[i] == data[i].totalVisitors as real
  {
    seq(|data|, i requires 0 <= i < |data| => data[i].totalVisitors as real)
  }

  function Collections(data: seq<ChartRow>): (vs: seq<real>)
    ensures |vs| == |data|
    ensures forall i :: 0 <= i < |data| ==> vs[i] == data[i].fineCollections
  {
    seq(|data|, i requires 0 <= i < |data| => data[i].fineCollections)
  }

  /** `xStep`: each month's share of the drawing width. */
  function SlotWidth(n: nat): real
    requires n > 0
  {
    ChartWidth / n as real
  }

  function BarWidth(n: nat): real
    requires n > 0
  {
    ChartWidth / (n as real * 2.5)
  }

  /** A value's bar height: its share of the series maximum, times 80% of
      the drawing height. */
  function BarHeight(v: real, seriesMax: real, inner: real): real
    requires seriesMax > 0.0
  {
    (v / seriesMax) * inner * 0.8
  }

  /** A bar standing on the baseline. */
  function StandingBar(x: real, width: real, h: real, inner: real): (r: Rect)
    ensures r.y + r.height == Padding + inner
    ensures r.x == x && r.width == width && r.height == h
  {
    Rect(x, Padding + inner - h, width, h)
  }

  function BarsAt(i: nat, n: nat, visitors: real, collections: real,
                  maxVisitors: real, maxCollections: real, inner: real): BarPair
    requires i < n && maxVisitors > 0.0 && maxCollections > 0.0
  {
    var x := Padding + i as real * SlotWidth(n) + SlotWidth(n) / 4.0;
    BarPair(
      StandingBar(x, BarWidth(n), BarHeight(visitors, maxVisitors, inner), inner),
      StandingBar(x + BarWidth(n) + 2.0, BarWidth(n), BarHeight(collections, maxCollections, inner), inner))
  }

  lemma BarHeightRange(v: real, seriesMax: real, inner: real)
    requires seriesMax > 0.0 && inner >= 0.0 && 0.0 <= v <= seriesMax
    ensures 0.0 <= BarHeight(v, seriesMax, inner) <= 0.8 * inner
    ensures BarHeight(seriesMax, seriesMax, inner) == 0.8 * inner
    ensures BarHeight(0.0, seriesMax, inner) == 0.0
  {
    var share := v / seriesMax;
    assert 0.0 <= share <= 1.0;
    assert share * inner <= inner;
    assert BarHeight(v, seriesMax, inner) == (share * inner) * 0.8;
  }

  /** `SimpleBarChart`: nothing for no data; otherwise one pair of bars per
      month, each series on its own scale, every bar standing on the
      baseline. */
  function BarChart(data: seq<ChartRow>, height: real): (r: Option<seq<BarPair>>)
    requires data == [] || (MaxOf(Visitors(data)) > 0.0 && MaxOf(Collections(data)) > 0.0)
    ensures r.None? <==> data == []
    ensures r.Some? ==> |r.value| == |data|
    ensures r.Some? ==> forall i :: 0 <= i < |data| ==>
      var n := |data|;
      var b := r.value[i];
      && b.visitors.x == Padding + i as real * SlotWidth(n) + SlotWidth(n) / 4.0
      && b.collections.x == b.visitors.x + BarWidth(n) + 2.0
      && b.visitors.width == BarWidth(n) && b.collections.width == BarWidth(n)
      && b.visitors.y + b.visitors.height == height - Padding
      && b.collections.y + b.collections.height == height - Padding
      && b.visitors.height == BarHeight(data[i].totalVisitors as real, MaxOf(Visitors(data)), InnerHeight(height))
      && b.collections.height == BarHeight(data[i].fineCollections, MaxOf(Collections(data)), InnerHeight(height))
    ensures r.Some? && height >= 2.0 * Padding && (forall i :: 0 <= i < |data| ==> data[i].fineCollections >= 0.0) ==>
      forall i :: 0 <= i < |data| ==>
      && 0.0 <= r.value[i].visitors.height <= 0.8 * InnerHeight(height)
      && 0.0 <= r.value[i].collections.height <= 0.8 * InnerHeight(height)
  {
    if data == [] then None
    else
      var n := |data|;
      var inner := InnerHeight(height);
      var vs := Visitors(data);
      var cs := Collections(data);
      var maxV := MaxOf(vs);
      var maxC := MaxOf(cs);
      var bars := seq(n, i requires 0 <= i < n => BarsAt(i, n, vs[i], cs[i], maxV, maxC, inner));
      BarHeightsBounded(vs, cs, maxV, maxC, inner, bars);
      Some(bars)
  }

  /** Rows built from stored reports carry non-negative amounts, so the
      height bounds of `BarChart` apply to them. */
  lemma ChartRowFinesNonNegative(rs: seq<Report>)
    ensures forall i :: 0 <= i < |rs| ==> ChartRows(rs)[i].fineCollections >= 0.0
  {
    forall i | 0 <= i < |rs| ensures ChartRows(rs)[i].fineCollections >= 0.0 {
      assert Presents(ChartRows(rs)[i], rs[i]);
    }
  }

  lemma BarHeightsBounded(vs: seq<real>, cs: seq<real>, maxV: real, maxC: real, inner: real, bars: seq<BarPair>)
    requires |vs| == |cs| == |bars| > 0 && maxV > 0.0 && maxC > 0.0
    requires forall i :: 0 <= i < |vs| ==> 0.0 <= vs[i] <= maxV
    requires forall i :: 0 <= i < |cs| ==> cs[i] <= maxC
    requires forall i :: 0 <= i < |bars| ==> bars[i] == BarsAt(i, |bars|, vs[i], cs[i], maxV, maxC, inner)
    ensures inner >= 0.0 && (forall i :: 0 <= i < |cs| ==> cs[i] >= 0.0) ==> forall i :: 0 <= i < |bars| ==>
      && 0.0 <= bars[i].visitors.height <= 0.8 * inner
      && 0.0 <= bars[i].collections.height <= 0.8 * inner
  {
    if inner >= 0.0 && (forall i :: 0 <= i < |cs| ==> cs[i] >= 0.0) {
      forall i | 0 <= i < |bars|
        ensures 0.0 <= bars[i].visitors.height <= 0.8 * inner
        ensures 0.0 <= bars[i].collections.height <= 0.8 * inner
      {
        BarHeightRange(vs[i], maxV, inner);
        BarHeightRange(cs[i], maxC, inner);
      }
    }
  }

  // ---------------------------------------------------------------------
  // Bar layout

  /** Slot `i` starts at this x. */
  function SlotStart(i: nat, n: nat): real
    requires n > 0
  {
    Padding + i as real * SlotWidth(n)
  }

  /** The months of a drawable bar chart. */
  predicate Drawable(data: seq<ChartRow>) {
    data != [] && MaxOf(Visitors(data)) > 0.0 && MaxOf(Collections(data)) > 0.0
  }

  /** The visitors bar stays inside its slot: it starts a quarter slot in
      and its width is 40% of a slot. */
  lemma VisitorsBarInsideSlot(data: seq<ChartRow>, height: real, i: nat)
    requires Drawable(data) && i < |data|
    ensures var n := |data|;
      var b := BarChart(data, height).value[i].visitors;
      && b.x == SlotStart(i, n) + 0.25 * SlotWidth(n)
      && b.x + b.width == SlotStart(i, n) + 0.65 * SlotWidth(n)
      && SlotStart(i, n) < b.x && b.x + b.width < SlotStart(i, n) + SlotWidth(n)
  {
    BarWidthShare(|data|);
  }

  /** The collections bar does not fit in its slot: its right edge lies
      1.05 slots plus 2 units past the slot's start, beyond the slot's end. */
  lemma CollectionsBarOverrunsSlot(data: seq<ChartRow>, height: real, i: nat)
    requires Drawable(data) && i < |data|
    ensures var n := |data|;
      var b := BarChart(data, height).value[i].collections;
      && b.x + b.width == SlotStart(i, n) + 1.05 * SlotWidth(n) + 2.0
      && b.x + b.width > SlotStart(i, n) + SlotWidth(n)
  {
    BarWidthShare(|data|);
  }

  /** The overrun reaches the next month's visitors bar exactly when there
      are 60 or more months on the chart. */
  lemma BarsClearNextSlot(data: seq<ChartRow>, height: real, i: nat)
    requires Drawable(data) && i + 1 < |data|
    ensures var bars := BarChart(data, height).value;
      var here := bars[i].collections;
      var next := bars[i + 1].visitors;
      here.x + here.width < next.x <==> |data| < 60
  {
    var n := |data|;
    var bars := BarChart(data, height).value;
    CollectionsBarOverrunsSlot(data, height, i);
    VisitorsBarInsideSlot(data, height, i + 1);
    SlotStartNext(i, n);
    SlotWidthAboveTen(n);
    Clearance(SlotStart(i, n), SlotWidth(n),
              bars[i].collections.x + bars[i].collections.width, bars[i + 1].visitors.x);
  }

  /** Consecutive slots abut. */
  lemma SlotStartNext(i: nat, n: nat)
    requires n > 0
    ensures SlotStart(i + 1, n) == SlotStart(i, n) + SlotWidth(n)
  {
    assert (i + 1) as real * SlotWidth(n) == i as real * SlotWidth(n) + SlotWidth(n);
  }

  /** A right edge 1.05 slots plus 2 past a slot's start clears a left edge
      1.25 slots past it exactly when the slot is wider than 10. */
  lemma Clearance(start: real, w: real, right: real, left: real)
    requires right == start + 1.05 * w + 2.0
    requires left == start + w + 0.25 * w
    ensures right < left <==> w > 10.0
  {
  }

  /** A slot is wider than 10 units exactly when fewer than 60 months share
      the 600-unit plot. */
  lemma SlotWidthAboveTen(n: nat)
    requires n > 0
    ensures SlotWidth(n) > 10.0 <==> n < 60
  {
    var w := SlotWidth(n);
    assert w * n as real == 600.0;
    if n < 60 {
      assert n as real * w > n as real * 10.0 || w > 10.0;
    }
  }

  /** Every bar lies inside the view box, horizontally: the last one ends
      at 642 + 30/N, within its 680-unit width. */
  lemma BarsInsideViewBox(data: seq<ChartRow>, height: real, i: nat)
    requires Drawable(data) && i < |data|
    ensures var b := BarChart(data, height).value[i];
      && 0.0 <= b.visitors.x
      && b.collections.x + b.collections.width <= ViewBoxWidth
  {
    VisitorsBarInsideSlot(data, height, i);
    CollectionsBarOverrunsSlot(data, height, i);
    SlotStartBounds(i, |data|);
  }

  /** A bar is 40% of a month's slot. */
  lemma BarWidthShare(n: nat)
    requires n > 0
    ensures BarWidth(n) == 0.4 * SlotWidth(n)
  {
  }

  lemma SlotStartBounds(i: nat, n: nat)
    requires i < n
    ensures Padding <= SlotStart(i, n) <= Padding + ChartWidth - SlotWidth(n)
    ensures 0.0 < SlotWidth(n) <= ChartWidth
  {
    var w := SlotWidth(n);
    assert i as real * w <= (n - 1) as real * w;
    assert (n - 1) as real * w == ChartWidth - w;
  }
}

=== FILE: controllers.dfy ===
/** The request handlers of the report pages and the dashboard, as pure
    functions of the table. The current year and the current instant are
    parameters; rendering, redirects and flash messages are reduced to a
    `Response` value. */
module Controllers {
  import opened Domain
  import opened Validation
  import opened ReportStore
  import opened Aggregates
  import opened Sorting

  /** What the report index page receives. */
  datatype IndexView = IndexView(
    reports: seq<Report>,
    availableYears: seq<int>,
    selectedYear: int,
    yearTotals: Totals,
    chartData: seq<ChartRow>)

  /** What the dashboard receives. */
  datatype DashboardView = DashboardView(
    recentReports: seq<Report>,
    yearTotals: CountedTotals,
    chartData: seq<ChartRow>,
    currentYear: int)

  datatype Response =
    | Redirect(id: nat)
    | Deleted
    | ValidationFailed(errors: map<Field, Rule>)
      /** `NotFound` is route model binding's 404. `Duplicate` and
          `OutOfRange` are database errors that the controller does not
          catch, so the client sees a server error. */
    | Failed(error: StoreError)

  /** The table after the request, and what the client is told. */
  datatype Outcome = Outcome(store: Store, response: Response)

  const RecentLimit: nat := 6

  /** The report index for the requested year, or the current year when
      none is requested. */
  function Index(s: Store, requestedYear: Option<int>, currentYear: int): (v: IndexView)
    requires Valid(s)
    ensures v.selectedYear == (if requestedYear.Some? then requestedYear.value else currentYear)
    ensures forall x :: x in v.reports <==> x in s.rows.Values && x.year == v.selectedYear
    ensures forall i, j :: 0 <= i < j < |v.reports| ==> v.reports[i].month < v.reports[j].month
    ensures InDomain(s) ==> |v.reports| <= 12
    ensures forall i, j :: 0 <= i < j < |v.availableYears| ==> v.availableYears[i] > v.availableYears[j]
    ensures forall y :: y in v.availableYears <==> exists id :: id in s.rows && s.rows[id].year == y
    ensures forall c: Column :: TotalOf(v.yearTotals, c) == Sum(v.reports, c)
    ensures |v.chartData| == |v.reports|
    ensures forall i :: 0 <= i < |v.reports| ==> Presents(v.chartData[i], v.reports[i])
  {
    var year := requestedYear.GetOr(currentYear);
    var reports := ForYear(s, year);
    ForYearAtMostTwelve(s, year);
    IndexView(reports, AvailableYears(s), year, YearTotals(reports), ChartRows(reports))
  }

  /** The dashboard: the six newest reports, and the current year's totals
      and chart rows. */
  function Dashboard(s: Store, currentYear: int): (v: DashboardView)
    requires Valid(s)
    ensures v.currentYear == currentYear
    ensures |v.recentReports| <= RecentLimit
    ensures Distinct(v.recentReports)
    ensures forall x :: x in v.recentReports ==> x in s.rows.Values
    ensures forall i, j :: 0 <= i < j < |v.recentReports| ==>
              v.recentReports[i].createdAt >= v.recentReports[j].createdAt
    ensures forall x, y :: x in s.rows.Values && x !in v.recentReports && y in v.recentReports ==>
              x.createdAt <= y.createdAt
    ensures |v.recentReports| < RecentLimit ==> forall x :: x in s.rows.Values ==> x in v.recentReports
    ensures var yearReports := ForYear(s, currentYear);
      && (forall c: Column :: TotalOf(v.yearTotals.totals, c) == Sum(yearReports, c))
      && v.yearTotals.reportsCount == |yearReports|
      && |v.chartData| == |yearReports|
      && (forall i :: 0 <= i < |yearReports| ==> Presents(v.chartData[i], yearReports[i]))
  {
    var yearReports := ForYear(s, currentYear);
    DashboardView(Recent(s, RecentLimit), CountedYearTotals(yearReports), ChartRows(yearReports), currentYear)
  }

  /** A year without reports shows no rows, zero totals, a zero count and
      no chart, on the index page and on the dashboard alike. */
  lemma EmptyYearViews(s: Store, currentYear: int)
    requires Valid(s)
    requires forall id :: id in s.rows ==> s.rows[id].year != currentYear
    ensures Index(s, Some(currentYear), currentYear).reports == []
    ensures Index(s, Some(currentYear), currentYear).yearTotals == Zero
    ensures Index(s, Some(currentYear), currentYear).chartData == []
    ensures Dashboard(s, currentYear).yearTotals == CountedTotals(Zero, 0)
    ensures Dashboard(s, currentYear).chartData == []
  {
    var r := ForYear(s, currentYear);
    assert |r| > 0 ==> r[0] in s.rows.Values && r[0].year == currentYear;
    assert forall x :: x in s.rows.Values ==> x.year != currentYear;
    assert r == [];
  }

  /** Handles a create request: validation, then the insert. Nothing is
      written unless a new report is created. */
  function StoreReport(s: Store, input: Input, now: nat): (o: Outcome)
    requires Valid(s) && s.clock <= now
    ensures Valid(o.store)
    ensures InDomain(s) ==> InDomain(o.store)
    ensures !o.response.Redirect? ==> o.store == s
    ensures !o.response.Deleted?
    ensures o.response.ValidationFailed? <==> !Acceptable(input)
    ensures o.response.ValidationFailed? ==>
      forall f :: f in o.response.errors <==> !FieldAccepted(input, f)
    ensures o.response.Redirect? ==>
      var id := o.response.id;
      && Acceptable(input)
      && id !in s.rows
      && id in o.store.rows
      && o.store.rows == s.rows[id := o.store.rows[id]]
      && Carries(o.store.rows[id], Validate(input).fields, None)
    ensures Acceptable(input) ==>
      var f := Validate(input).fields;
      && (o.response.Failed? <==> !FieldsFit(f) || PeriodTaken(s, f.year, f.month, 0))
      && (o.response.Failed? ==>
            o.response.error == (if !FieldsFit(f) then OutOfRange else Duplicate))
  {
    match Validate(input)
    case Rejected(errors) => Outcome(s, ValidationFailed(errors))
    case Accepted(f) =>
      WritesPreserveDomain(s, f, 0, now);
      match Create(s, f, now)
      case Err(e) => Outcome(s, Failed(e))
      case Ok(w) => Outcome(w.store, Redirect(w.report.id))
  }

  /** Handles an update request. The id is resolved first, so a missing
      report is reported as not found before any validation runs. */
  function UpdateReport(s: Store, id: nat, input: Input, now: nat): (o: Outcome)
    requires Valid(s) && s.clock <= now
    ensures Valid(o.store)
    ensures InDomain(s) ==> InDomain(o.store)
    ensures !o.response.Redirect? ==> o.store == s
    ensures !o.response.Deleted?
    ensures o.response == Failed(NotFound) <==> id !in s.rows
    ensures id in s.rows && Acceptable(input) ==>
      var f := Validate(input).fields;
      && (o.response.Failed? <==> !FieldsFit(f) || PeriodTaken(s, f.year, f.month, id))
      && (o.response.Failed? ==>
            o.response.error == (if !FieldsFit(f) then OutOfRange else Duplicate))
    ensures o.response.ValidationFailed? <==> id in s.rows && !Acceptable(input)
    ensures o.response.Redirect? ==>
      && o.response.id == id
      && Acceptable(input)
      && id in s.rows && id in o.store.rows
      && o.store.rows == s.rows[id := o.store.rows[id]]
      && Carries(o.store.rows[id], Validate(input).fields, s.rows[id].notes)
      && o.store.rows[id].createdAt == s.rows[id].createdAt
  {
    if id !in s.rows then
      Outcome(s, Failed(NotFound))
    else
      match Validate(input)
      case Rejected(errors) => Outcome(s, ValidationFailed(errors))
      case Accepted(f) =>
        WritesPreserveDomain(s, f, id, now);
        match Update(s, id, f, now)
        case Err(e) => Outcome(s, Failed(e))
        case Ok(w) => Outcome(w.store, Redirect(id))
  }

  /** Handles a delete request. */
  function DestroyReport(s: Store, id: nat): (o: Outcome)
    requires Valid(s)
    ensures Valid(o.store)
    ensures InDomain(s) ==> InDomain(o.store)
    ensures o.response == (if id in s.rows then Deleted else Failed(NotFound))
    ensures o.response.Failed? ==> o.store == s
    ensures o.store.rows.Keys == s.rows.Keys - {id}
    ensures forall other :: other in o.store.rows ==> o.store.rows[other] == s.rows[other]
  {
    match Delete(s, id)
    case Err(e) => Outcome(s, Failed(e))
    case Ok(s') => Outcome(s', Deleted)
  }

  /** The validator does not look at the table: a payload it accepts, and
      that was stored once, is refused by the unique (year, month) index
      when it is sent again. */
  lemma AcceptedInputCanStillCollide(s: Store, input: Input, now: nat, later: nat)
    requires Valid(s) && s.clock <= now <= later
    requires StoreReport(s, input, now).response.Redirect?
    ensures Acceptable(input)
    ensures var first := StoreReport(s, input, now).store;
      StoreReport(first, input, later) == Outcome(first, Failed(Duplicate))
  {
    var f := Validate(input).fields;
    var w := Create(s, f, now).value;
    CreateTwiceFails(s, f, f, now, later);
  }

  /** The listing scenario: six monthly reports of one year are listed as
      six rows, January to June. */
  lemma IndexListsWholeYear(s: Store, year: int)
    requires Valid(s) && InDomain(s)
    requires forall m :: 1 <= m <= 6 ==> PeriodTaken(s, year, m, 0)
    requires forall id :: id in s.rows && s.rows[id].year == year ==> s.rows[id].month <= 6
    ensures var v := Index(s, Some(year), year);
      && |v.reports| == 6
      && (forall i :: 0 <= i < 6 ==> v.reports[i].month == i + 1)
  {
    var v := Index(s, Some(year), year);
    var r := v.reports;
    forall i | 0 <= i < |r| ensures 1 <= r[i].month <= 6 {
      assert r[i] in r;
      var id :| id in s.rows && s.rows[id] == r[i];
    }
    forall m | 1 <= m <= 6 ensures MonthListed(r, m) {
      assert PeriodTaken(s, year, m, 0);
      var id :| id in s.rows && id != 0 && s.rows[id].year == year && s.rows[id].month == m;
      assert s.rows[id] in s.rows.Values;
      assert s.rows[id] in r;
    }
    MonthsFillRange(r, 6);
  }

  predicate MonthListed(r: seq<Report>, month: int) {
    exists i :: 0 <= i < |r| && r[i].month == month
  }

  /** Strictly increasing months drawn from 1..n that cover all of 1..n are
      exactly 1, 2, ..., n. */
  lemma MonthsFillRange(r: seq<Report>, n: nat)
    requires forall i, j :: 0 <= i < j < |r| ==> r[i].month < r[j].month
    requires forall i :: 0 <= i < |r| ==> 1 <= r[i].month <= n
    requires forall m :: 1 <= m <= n ==> MonthListed(r, m)
    ensures |r| == n
    ensures forall i :: 0 <= i < n ==> r[i].month == i + 1
  {
    var k := 0;
    while k < n
      invariant 0 <= k <= n && k <= |r|
      invariant forall i :: 0 <= i < k ==> r[i].month == i + 1
    {
      assert MonthListed(r, k + 1);
      var j :| 0 <= j < |r| && r[j].month == k + 1;
      assert j >= k;
      AscendingMonthsFloor(r, k);
      assert r[k].month == k + 1;
      k := k + 1;
    }
    if |r| > n {
      AscendingMonthsFloor(r, |r| - 1);
    }
  }
}

=== FILE: domain.dfy ===
/** The library report record, its validated input, and the values derived
    from a report alone: the month name, the period label and the
    fixed-point money representation. */
module Domain {

  datatype Option<+T> = None | Some(value: T) {
    function GetOr(default: T): T {
      match this
      case Some(v) => v
      case None => default
    }
  }

  /** Largest `fine_collections` a decimal(10,2) column holds, in cents. */
  const MaxCents: nat := 9_999_999_999

  /** The signed 32-bit range of the `integer` columns: month, year and
      the four counts. */
  const MinInt32: int := -0x8000_0000
  const MaxInt32: int := 0x7FFF_FFFF

  /** Longest `notes` text the validator admits, in characters. */
  const MaxNotesLength: nat := 1000

  type NonNegReal = q: real | q >= 0.0

  /** One stored monthly report. Money is kept in integer cents, which is
      exact for a column with two fractional digits. */
  datatype Report = Report(
    id: nat,
    month: int,
    year: int,
    newBooks: nat,
    booksBorrowed: nat,
    newMembers: nat,
    totalVisitors: nat,
    fineCents: nat,
    notes: Option<string>,
    createdAt: nat,
    updatedAt: nat)

  /** What the validated payload says about `notes`: the key was not sent,
      it was sent as null, or it was sent as a text. */
  datatype NotesChange = NotesOmitted | NotesNull | NotesText(text: string)

  /** The validated payload: exactly the eight mass-assignable attributes.
      `id`, `created_at` and `updated_at` have no place here, so they can
      never come from request input. */
  datatype Fields = Fields(
    month: int,
    year: int,
    newBooks: nat,
    booksBorrowed: nat,
    newMembers: nat,
    totalVisitors: nat,
    fine: NonNegReal,
    notes: NotesChange)

  /** Every value fits the column it is written to, as a database that
      enforces declared widths demands: the integers in 32 bits, the amount
      in decimal(10,2). */
  predicate FieldsFit(f: Fields) {
    && MinInt32 <= f.month <= MaxInt32
    && MinInt32 <= f.year <= MaxInt32
    && f.newBooks <= MaxInt32
    && f.booksBorrowed <= MaxInt32
    && f.newMembers <= MaxInt32
    && f.totalVisitors <= MaxInt32
    && ToCents(f.fine) <= MaxCents
  }

  /** The same widths, read off a stored report. */
  predicate ReportFits(r: Report) {
    && MinInt32 <= r.month <= MaxInt32
    && MinInt32 <= r.year <= MaxInt32
    && r.newBooks <= MaxInt32
    && r.booksBorrowed <= MaxInt32
    && r.newMembers <= MaxInt32
    && r.totalVisitors <= MaxInt32
    && r.fineCents <= MaxCents
  }

  /** The ranges the validator enforces on the attributes it admits. */
  predicate FieldsInDomain(f: Fields) {
    && 1 <= f.month <= 12
    && 2000 <= f.year <= 2100
    && (f.notes.NotesText? ==> |f.notes.text| <= MaxNotesLength)
  }

  /** The same ranges, read off a stored report. */
  predicate ReportInDomain(r: Report) {
    && 1 <= r.month <= 12
    && 2000 <= r.year <= 2100
    && (r.notes.Some? ==> |r.notes.value| <= MaxNotesLength)
  }

  /** Rounds a non-negative amount to whole cents, half up, as the
      two-decimal cast and column do. */
  function ToCents(amount: NonNegReal): (cents: nat)
    ensures cents as real - 0.5 <= amount * 100.0 < cents as real + 0.5
  {
    (amount * 100.0 + 0.5).Floor
  }

  lemma ToCentsExact(cents: nat)
    ensures ToCents(cents as real / 100.0) == cents
  {
  }

  // ---------------------------------------------------------------------
  // Month names

  const MonthNames: seq<string> := [
    "January", "February", "March", "April", "May", "June",
    "July", "August", "September", "October", "November", "December"]

  /** English name of a month number, or "Unknown" outside 1..12. */
  function MonthName(month: int): (name: string)
    ensures 1 <= month <= 12 <==> name != "Unknown"
    ensures 1 <= month <= 12 ==> name in MonthNames
  {
    if 1 <= month <= 12 then MonthNames[month - 1] else "Unknown"
  }

  /** The month number an English month name stands for. */
  function MonthNumber(name: string): (month: Option<int>)
    ensures month.Some? ==> 1 <= month.value <= 12
  {
    if name == "January" then Some(1)
    else if name == "February" then Some(2)
    else if name == "March" then Some(3)
    else if name == "April" then Some(4)
    else if name == "May" then Some(5)
    else if name == "June" then Some(6)
    else if name == "July" then Some(7)
    else if name == "August" then Some(8)
    else if name == "September" then Some(9)
    else if name == "October" then Some(10)
    else if name == "November" then Some(11)
    else if name == "December" then Some(12)
    else None
  }

  /** The name table, entry by entry. */
  lemma MonthNameTable()
    ensures MonthName(1) == "January"
    ensures MonthName(2) == "February"
    ensures MonthName(3) == "March"
    ensures MonthName(4) == "April"
    ensures MonthName(5) == "May"
    ensures MonthName(6) == "June"
    ensures MonthName(7) == "July"
    ensures MonthName(8) == "August"
    ensures MonthName(9) == "September"
    ensures MonthName(10) == "October"
    ensures MonthName(11) == "November"
    ensures MonthName(12) == "December"
  {
    assert MonthNames[0] == "January";
    assert MonthNames[1] == "February";
    assert MonthNames[2] == "March";
    assert MonthNames[3] == "April";
    assert MonthNames[4] == "May";
    assert MonthNames[5] == "June";
    assert MonthNames[6] == "July";
    assert MonthNames[7] == "August";
    assert MonthNames[8] == "September";
    assert MonthNames[9] == "October";
    assert MonthNames[10] == "November";
    assert MonthNames[11] == "December";
  }

  /** Every month number outside 1..12 is named "Unknown", and "Unknown"
      names no month. */
  lemma MonthNameUnknown(month: int)
    ensures !(1 <= month <= 12) ==> MonthName(month) == "Unknown"
    ensures MonthNumber("Unknown") == None
  {
  }

  /** The names are a faithful encoding of 1..12: reading a name back
      gives the month it came from, so no two months share a name. */
  lemma MonthNameRoundTrip(month: int)
    requires 1 <= month <= 12
    ensures MonthNumber(MonthName(month)) == Some(month)
  {
  }

  lemma MonthNamesDistinct(m1: int, m2: int)
    requires 1 <= m1 <= 12 && 1 <= m2 <= 12 && m1 != m2
    ensures MonthName(m1) != MonthName(m2)
  {
    MonthNameRoundTrip(m1);
    MonthNameRoundTrip(m2);
  }

  // ---------------------------------------------------------------------
  // Decimal rendering of integers, as string interpolation prints them

  predicate IsDigit(c: char) {
    '0' <= c <= '9'
  }

  predicate AllDigits(s: string) {
    forall i :: 0 <= i < |s| ==> IsDigit(s[i])
  }

  function DigitChar(d: nat): (c: char)
    requires d < 10
    ensures IsDigit(c) && (c - '0') as nat == d
  {
    "0123456789"[d]
  }

  /** At least one digit, and no leading zero unless the number is 0. */
  predicate CanonicalDigits(s: string) {
    |s| >= 1 && AllDigits(s) && (|s| > 1 ==> s[0] != '0')
  }

  /** How PHP prints an integer: canonical digits, with a minus sign in
      front of a negative one. */
  predicate CanonicalInt(s: string) {
    || CanonicalDigits(s)
    || (|s| >= 2 && s[0] == '-' && s[1] != '0' && CanonicalDigits(s[1..]))
  }

  /** Canonical decimal digits of `n`: at least one digit, no leading zero. */
  function NatToString(n: nat): (s: string)
    ensures |s| >= 1 && AllDigits(s)
    ensures |s| > 1 ==> s[0] != '0'
    decreases n
  {
    if n < 10 then [DigitChar(n)] else NatToString(n / 10) + [DigitChar(n % 10)]
  }

  function IntToString(n: int): (s: string)
    ensures |s| >= 1
    ensures CanonicalInt(s)
  {
    if n < 0 then
      var digits := NatToString(-n);
      NonZeroLeadingDigit(-n);
      assert ("-" + digits)[1..] == digits;
      "-" + digits
    else NatToString(n)
  }

  /** Only zero is written with a leading zero. */
  lemma NonZeroLeadingDigit(n: nat)
    requires n > 0
    ensures NatToString(n)[0] != '0'
  {
    if n < 10 {
      assert NatToString(n) == [DigitChar(n)];
    }
  }

  /** Value of a string of decimal digits. */
  function DigitsValue(s: string): nat
    requires AllDigits(s)
  {
    if s == [] then 0 else DigitsValue(s[..|s| - 1]) * 10 + (s[|s| - 1] - '0') as nat
  }

  /** Reads back an optionally signed decimal integer. */
  function ParseInt(s: string): Option<int> {
    if |s| >= 2 && s[0] == '-' && AllDigits(s[1..]) then Some(-(DigitsValue(s[1..]) as int))
    else if |s| >= 1 && AllDigits(s) then Some(DigitsValue(s))
    else None
  }

  lemma {:induction false} NatToStringRoundTrip(n: nat)
    ensures DigitsValue(NatToString(n)) == n
    decreases n
  {
    if n >= 10 {
      var s := NatToString(n);
      NatToStringRoundTrip(n / 10);
      assert s[..|s| - 1] == NatToString(n / 10);
    }
  }

  /** Rendering then reading an integer gives it back. */
  lemma IntToStringRoundTrip(n: int)
    ensures ParseInt(IntToString(n)) == Some(n)
  {
    if n < 0 {
      NegativeRoundTrip(-n);
    } else {
      NatRoundTrip(n);
    }
  }

  lemma NatRoundTrip(n: nat)
    ensures ParseInt(IntToString(n)) == Some(n)
  {
    var s := NatToString(n);
    assert IntToString(n) == s;
    NatToStringRoundTrip(n);
    assert IsDigit(s[0]);
  }

  lemma NegativeRoundTrip(m: nat)
    requires m > 0
    ensures ParseInt(IntToString(-(m as int))) == Some(-(m as int))
  {
    var digits := NatToString(m);
    var s := "-" + digits;
    assert IntToString(-(m as int)) == s;
    NatToStringRoundTrip(m);
    assert s[1..] == digits;
  }

  /** The other direction: a canonical string is the rendering of the
      integer it reads as, so a canonical rendering is unique. */
  lemma CanonicalRoundTrip(s: string)
    requires CanonicalInt(s)
    ensures ParseInt(s).Some? && IntToString(ParseInt(s).value) == s
  {
    if CanonicalDigits(s) {
      CanonicalDigitsRoundTrip(s);
    } else {
      var digits := s[1..];
      CanonicalDigitsRoundTrip(digits);
      LeadingDigitPositive(digits);
      assert s == "-" + digits;
    }
  }

  lemma {:induction false} CanonicalDigitsRoundTrip(s: string)
    requires CanonicalDigits(s)
    ensures NatToString(DigitsValue(s)) == s
    decreases |s|
  {
    var d := (s[|s| - 1] - '0') as nat;
    assert DigitChar(d) == s[|s| - 1];
    if |s| > 1 {
      var prefix := s[..|s| - 1];
      assert prefix[0] == s[0];
      CanonicalDigitsRoundTrip(prefix);
      LeadingDigitPositive(prefix);
      var n := DigitsValue(s);
      assert n / 10 == DigitsValue(prefix) && n % 10 == d;
      assert s == prefix + [s[|s| - 1]];
    }
  }

  lemma {:induction false} LeadingDigitPositive(s: string)
    requires |s| >= 1 && AllDigits(s) && s[0] != '0'
    ensures DigitsValue(s) >= 1
    decreases |s|
  {
    if |s| > 1 {
      var prefix := s[..|s| - 1];
      assert prefix[0] == s[0];
      LeadingDigitPositive(prefix);
    }
  }

  // ---------------------------------------------------------------------
  // Derived attributes

  /** "{month name} {year}": the month name, one space, and the year's
      decimal digits, which read back as the year. */
  function Period(r: Report): (p: string)
    ensures var name := MonthName(r.month);
      && |p| > |name| + 1
      && p[..|name|] == name
      && p[|name|] == ' '
      && ParseInt(p[|name| + 1..]) == Some(r.year)
      && CanonicalInt(p[|name| + 1..])
  {
    var name := MonthName(r.month);
    var p := name + " " + IntToString(r.year);
    assert p[|name| + 1..] == IntToString(r.year);
    IntToStringRoundTrip(r.year);
    p
  }

  lemma PeriodExample(r: Report)
    requires r.month == 3 && r.year == 2024
    ensures MonthName(r.month) == "March"
    ensures Period(r) == "March 2024"
  {
    assert NatToString(2) == "2";
    assert NatToString(20) == "20";
    assert NatToString(202) == "202";
    assert NatToString(2024) == "2024";
  }
}

=== FILE: sorting.dfy ===
/** Ordering helpers for the store's `ORDER BY` queries: a sequence sorted
    by an integer key, an insertion sort establishing it, and the
    distinctness facts the store's listings rely on. */
module Sorting {

  predicate SortedBy<T>(xs: seq<T>, key: T -> int) {
    forall i, j :: 0 <= i < j < |xs| ==> key(xs[i]) <= key(xs[j])
  }

  predicate Distinct<T(==)>(xs: seq<T>) {
    forall i, j :: 0 <= i < j < |xs| ==> xs[i] != xs[j]
  }

  /** Puts `x` into a sorted sequence, keeping it sorted. */
  function Insert<T>(x: T, xs: seq<T>, key: T -> int): (r: seq<T>)
    requires SortedBy(xs, key)
    ensures SortedBy(r, key)
    ensures multiset(r) == multiset(xs) + multiset{x}
    ensures |r| == |xs| + 1
    ensures r[0] == x || (|xs| > 0 && r[0] == xs[0])
  {
    if xs == [] || key(x) <= key(xs[0]) then
      ConsSorted(x, xs, key);
      [x] + xs
    else
      var rest := Insert(x, xs[1..], key);
      assert xs == [xs[0]] + xs[1..];
      ConsSorted(xs[0], rest, key);
      [xs[0]] + rest
  }

  /** A head no larger than the first element keeps a sorted sequence
      sorted. */
  lemma ConsSorted<T>(h: T, xs: seq<T>, key: T -> int)
    requires SortedBy(xs, key)
    requires xs != [] ==> key(h) <= key(xs[0])
    ensures SortedBy([h] + xs, key)
  {
    var r := [h] + xs;
    forall i, j | 0 <= i < j < |r| ensures key(r[i]) <= key(r[j]) {
      if i == 0 {
        assert key(xs[0]) <= key(xs[j - 1]) || j == 1;
      }
    }
  }

  /** Insertion sort: ascending by `key`, a permutation of the input. */
  function Sort<T>(xs: seq<T>, key: T -> int): (r: seq<T>)
    ensures SortedBy(r, key)
    ensures multiset(r) == multiset(xs)
    ensures |r| == |xs|
  {
    if xs == [] then
      []
    else
      assert xs == [xs[0]] + xs[1..];
      Insert(xs[0], Sort(xs[1..], key), key)
  }

  /** Sequences with the same multiset have the same elements. */
  lemma SameElements<T>(xs: seq<T>, ys: seq<T>)
    requires multiset(xs) == multiset(ys)
    ensures forall x :: x in xs <==> x in ys
  {
    forall x ensures x in xs <==> x in ys {
      assert x in xs <==> x in multiset(xs);
      assert x in ys <==> x in multiset(ys);
    }
  }

  /** Removing the element at `k` removes one occurrence of it. */
  lemma RemoveAt<T>(b: seq<T>, k: nat)
    requires k < |b|
    ensures multiset(b[..k] + b[k + 1..]) == multiset(b) - multiset{b[k]}
  {
    assert b == b[..k] + [b[k]] + b[k + 1..];
  }

  lemma {:induction false} DistinctCount<T>(xs: seq<T>, v: T)
    requires Distinct(xs)
    ensures multiset(xs)[v] <= 1
  {
    if xs != [] {
      assert xs == [xs[0]] + xs[1..];
      DistinctCount(xs[1..], v);
      if xs[0] == v {
        assert v !in xs[1..];
      }
    }
  }

  /** A permutation of a sequence without repetitions has none either. */
  lemma DistinctPermutation<T>(xs: seq<T>, ys: seq<T>)
    requires multiset(xs) == multiset(ys)
    requires Distinct(ys)
    ensures Distinct(xs)
  {
    forall i, j | 0 <= i < j < |xs|
      ensures xs[i] != xs[j]
    {
      if xs[i] == xs[j] {
        var v := xs[i];
        assert xs == xs[..j] + xs[j..];
        assert v in xs[..j];
        assert v in xs[j..];
        assert multiset(xs)[v] == multiset(xs[..j])[v] + multiset(xs[j..])[v];
        DistinctCount(ys, v);
        assert false;
      }
    }
  }
}

=== FILE: stats.dfy ===
/** The derived figures the pages show next to the stored ones: the
    dashboard's quick stats (monthly averages and total activity) and the
    activity breakdown of a single report. */
module Stats {
  import opened Domain
  import opened Aggregates
  import opened ReportStore
  import opened Controllers

  /** `Math.round(a / b)` for a non-negative quotient: the nearest whole
      number, a half rounded up. */
  function RoundedQuotient(a: nat, b: nat): (r: nat)
    requires b > 0
    ensures r as real - 0.5 <= a as real / b as real < r as real + 0.5
  {
    var r := (2 * a + b) / (2 * b);
    NearestBounds(a, b, r);
    r
  }

  lemma NearestBounds(a: nat, b: nat, r: nat)
    requires b > 0 && r == (2 * a + b) / (2 * b)
    ensures r as real - 0.5 <= a as real / b as real < r as real + 0.5
  {
    var m := (2 * a + b) % (2 * b);
    assert 2 * a + b == 2 * b * r + m && 0 <= m < 2 * b;
    var q := a as real / b as real;
    assert q * b as real == a as real;
    var d := q - r as real;
    assert (2.0 * d + 1.0) * b as real == m as real;
    assert (1.0 - 2.0 * d) * b as real == (2 * b - m) as real;
    PositiveFactor(2.0 * d + 1.0, b as real);
    PositiveFactor(1.0 - 2.0 * d, b as real);
  }

  lemma PositiveFactor(x: real, b: real)
    requires b > 0.0
    ensures x * b >= 0.0 ==> x >= 0.0
    ensures x * b > 0.0 ==> x > 0.0
  {
  }

  /** The bound above pins the result down: exactly one whole number lies
      within half a unit of the quotient, except that a half lies between
      two and the upper one is taken. */
  lemma RoundedQuotientUnique(a: nat, b: nat, k: int)
    requires b > 0
    requires k as real - 0.5 <= a as real / b as real < k as real + 0.5
    ensures k == RoundedQuotient(a, b)
  {
    var r := RoundedQuotient(a, b);
    assert k as real - 0.5 < r as real + 0.5;
    assert r as real - 0.5 < k as real + 0.5;
  }

  /** An average per report: `Math.round(total / count)`, or zero for no
      reports. */
  function AveragePerReport(total: nat, count: nat): (avg: nat)
    ensures count == 0 ==> avg == 0
    ensures count > 0 ==> avg as real - 0.5 <= total as real / count as real < avg as real + 0.5
  {
    if count > 0 then RoundedQuotient(total, count) else 0
  }

  /** The average fine per report, in whole currency units, from a total
      in cents. */
  function AverageRevenue(fineCents: nat, count: nat): (avg: nat)
    ensures count == 0 ==> avg == 0
    ensures count > 0 ==>
      var dollars := fineCents as real / 100.0;
      avg as real - 0.5 <= dollars / count as real < avg as real + 0.5
  {
    if count > 0 then
      var avg := RoundedQuotient(fineCents, 100 * count);
      assert fineCents as real / (100 * count) as real == (fineCents as real / 100.0) / count as real;
      avg
    else 0
  }

  /** Books activity of one report: new books and loans. */
  function BooksActivity(r: Report): nat {
    r.newBooks + r.booksBorrowed
  }

  /** People activity of one report: new members and visitors. */
  function PeopleActivity(r: Report): nat {
    r.newMembers + r.totalVisitors
  }

  /** The report page's total activity. It counts every column except the
      fine, and it is the sum of the books and the people activity shown
      beside it. */
  function ReportActivity(r: Report): (n: nat)
    ensures n == BooksActivity(r) + PeopleActivity(r)
    ensures n == ValueOf(r, NewBooks) + ValueOf(r, BooksBorrowed) + ValueOf(r, NewMembers) + ValueOf(r, TotalVisitors)
  {
    r.newBooks + r.booksBorrowed + r.newMembers + r.totalVisitors
  }

  /** The dashboard's total activity this year: the four counting totals. */
  function TotalActivity(t: Totals): nat {
    t.newBooks + t.booksBorrowed + t.newMembers + t.totalVisitors
  }

  function ActivitySum(rs: seq<Report>): nat {
    if rs == [] then 0 else ReportActivity(rs[0]) + ActivitySum(rs[1..])
  }

  /** The year's total activity is the sum of the activity of its reports:
      the dashboard and the report pages count the same events. */
  lemma {:induction false} YearActivityIsReportActivity(rs: seq<Report>)
    ensures TotalActivity(YearTotals(rs)) == ActivitySum(rs)
  {
    if rs != [] {
      YearActivityIsReportActivity(rs[1..]);
    }
  }

  /** The quick stats panel. */
  datatype QuickStats = QuickStats(
    reportsCreated: nat,
    averageBooks: nat,
    averageMembers: nat,
    averageRevenue: nat,
    totalActivity: nat)

  function QuickStatsOf(t: CountedTotals): (q: QuickStats)
    ensures q.reportsCreated == t.reportsCount
    ensures q.totalActivity == t.totals.newBooks + t.totals.booksBorrowed + t.totals.newMembers + t.totals.totalVisitors
    ensures t.reportsCount == 0 ==> q == QuickStats(0, 0, 0, 0, TotalActivity(t.totals))
    ensures t.reportsCount > 0 ==>
      var n := t.reportsCount as real;
      && q.averageBooks as real - 0.5 <= t.totals.newBooks as real / n < q.averageBooks as real + 0.5
      && q.averageMembers as real - 0.5 <= t.totals.newMembers as real / n < q.averageMembers as real + 0.5
      && q.averageRevenue as real - 0.5 <= (t.totals.fineCents as real / 100.0) / n < q.averageRevenue as real + 0.5
  {
    QuickStats(
      t.reportsCount,
      AveragePerReport(t.totals.newBooks, t.reportsCount),
      AveragePerReport(t.totals.newMembers, t.reportsCount),
      AverageRevenue(t.totals.fineCents, t.reportsCount),
      TotalActivity(t.totals))
  }

  /** The dashboard's quick stats for the current year. */
  function DashboardStats(s: Store, currentYear: int): (q: QuickStats)
    requires Valid(s)
    ensures q.reportsCreated == |ForYear(s, currentYear)|
    ensures q.totalActivity == ActivitySum(ForYear(s, currentYear))
  {
    var v := Dashboard(s, currentYear);
    var yearReports := ForYear(s, currentYear);
    assert v.yearTotals.totals == YearTotals(yearReports);
    YearActivityIsReportActivity(yearReports);
    QuickStatsOf(v.yearTotals)
  }

  lemma {:induction false} SumBounds(rs: seq<Report>, c: Column, lo: nat, hi: nat)
    requires forall i :: 0 <= i < |rs| ==> lo <= ValueOf(rs[i], c) <= hi
    ensures |rs| * lo <= Sum(rs, c) <= |rs| * hi
  {
    if rs != [] {
      var n := |rs[1..]|;
      SumBounds(rs[1..], c, lo, hi);
      assert ValueOf(rs[0], c) + Sum(rs[1..], c) == Sum(rs, c);
      MulSucc(n, lo);
      MulSucc(n, hi);
    }
  }

  lemma MulSucc(n: nat, x: nat)
    ensures (n + 1) * x == n * x + x
  {
  }

  /** Integer division by `d` is bounded by any `k` whose multiples
      bracket the dividend. */
  lemma DivBounds(x: nat, d: nat, k: nat)
    requires d > 0
    ensures d * k <= x ==> k <= x / d
    ensures x < d * (k + 1) ==> x / d <= k
  {
    var r := x / d;
    assert x == d * r + x % d && x % d < d;
    if d * k <= x && r < k {
      MulLe(d, r + 1, k);
    }
    if x < d * (k + 1) && r > k {
      MulLe(d, k + 1, r);
    }
  }

  lemma MulLe(d: nat, a: nat, b: nat)
    requires a <= b
    ensures d * a <= d * b
  {
  }

  lemma RoundedQuotientBetween(a: nat, b: nat, lo: nat, hi: nat)
    requires b > 0 && b * lo <= a <= b * hi
    ensures lo <= RoundedQuotient(a, b) <= hi
  {
    var d := 2 * b;
    var x := 2 * a + b;
    assert d * lo == 2 * (b * lo) && d * (hi + 1) == 2 * (b * hi) + 2 * b;
    DivBounds(x, d, lo);
    DivBounds(x, d, hi);
  }

  /** A monthly average lies between the smallest and the largest monthly
      value it averages. */
  lemma AverageWithinRange(rs: seq<Report>, c: Column, lo: nat, hi: nat)
    requires |rs| > 0
    requires forall i :: 0 <= i < |rs| ==> lo <= ValueOf(rs[i], c) <= hi
    ensures lo <= AveragePerReport(Sum(rs, c), |rs|) <= hi
  {
    SumBounds(rs, c, lo, hi);
    RoundedQuotientBetween(Sum(rs, c), |rs|, lo, hi);
  }

  /** A year in which every month has the same value averages to exactly
      that value. */
  lemma AverageOfConstant(rs: seq<Report>, c: Column, v: nat)
    requires |rs| > 0
    requires forall i :: 0 <= i < |rs| ==> ValueOf(rs[i], c) == v
    ensures AveragePerReport(Sum(rs, c), |rs|) == v
  {
    AverageWithinRange(rs, c, v, v);
  }

  /** A half rounds up: two reports with 25 and 30 new books average to 28,
      and a single fine of 125.50 shows as 126. */
  lemma AverageRoundsHalfUp()
    ensures AveragePerReport(55, 2) == 28
    ensures AveragePerReport(54, 2) == 27
    ensures AverageRevenue(12550, 1) == 126
    ensures AverageRevenue(12549, 1) == 125
  {
  }
}

=== FILE: store.dfy ===
/** The `library_reports` table: rows keyed by an auto-increment id, a
    unique (year, month) index, and the queries the controllers issue.
    Timestamps come from an abstract clock passed in as `now`; the store
    remembers the last instant it used so that time never runs backwards. */
module ReportStore {
  import opened Domain
  import opened Sorting

  datatype StoreError = NotFound | Duplicate | OutOfRange

  datatype Result<T> = Ok(value: T) | Err(error: StoreError)

  datatype Store = Store(rows: map<nat, Report>, nextId: nat, clock: nat)

  /** A successful write: the new table and the row as written. */
  datatype Written = Written(store: Store, report: Report)

  /** The table as the migration creates it: no rows, ids start at 1. */
  const Empty: Store := Store(map[], 1, 0)

  lemma EmptyValid()
    ensures Valid(Empty) && InDomain(Empty)
    ensures AllRows(Empty) == []
  {
  }

  /** The `unique_month_year` constraint. */
  predicate UniquePeriods(rows: map<nat, Report>) {
    forall a, b :: a in rows && b in rows && a != b ==>
      rows[a].year != rows[b].year || rows[a].month != rows[b].month
  }

  predicate Valid(s: Store) {
    && s.nextId >= 1
    && (forall id :: id in s.rows ==>
          && s.rows[id].id == id
          && 1 <= id < s.nextId
          && s.rows[id].createdAt <= s.rows[id].updatedAt <= s.clock
          && ReportFits(s.rows[id]))
    && UniquePeriods(s.rows)
  }

  /** Every row also satisfies the validator's ranges; true of any table
      written only with validated input. */
  predicate InDomain(s: Store) {
    forall id :: id in s.rows ==> ReportInDomain(s.rows[id])
  }

  /** Some row other than `except` already holds (year, month). */
  predicate PeriodTaken(s: Store, year: int, month: int, except: nat) {
    exists id :: id in s.rows && id != except && s.rows[id].year == year && s.rows[id].month == month
  }

  function NotesValue(notes: NotesChange, current: Option<string>): Option<string> {
    match notes
    case NotesOmitted => current
    case NotesNull => None
    case NotesText(t) => Some(t)
  }

  /** Mass assignment of the validated attributes onto a row; the id and
      the timestamps are left as they are. */
  function Assign(row: Report, f: Fields): (r: Report)
    ensures r.id == row.id && r.createdAt == row.createdAt && r.updatedAt == row.updatedAt
    ensures Carries(r, f, row.notes)
  {
    row.(month := f.month, year := f.year,
         newBooks := f.newBooks, booksBorrowed := f.booksBorrowed,
         newMembers := f.newMembers, totalVisitors := f.totalVisitors,
         fineCents := ToCents(f.fine), notes := NotesValue(f.notes, row.notes))
  }

  /** The row holds exactly the validated values (notes as resolved against
      `previous`, the notes before the write). */
  predicate Carries(r: Report, f: Fields, previous: Option<string>) {
    && r.month == f.month && r.year == f.year
    && r.newBooks == f.newBooks && r.booksBorrowed == f.booksBorrowed
    && r.newMembers == f.newMembers && r.totalVisitors == f.totalVisitors
    && r.fineCents as real - 0.5 <= f.fine * 100.0 < r.fineCents as real + 0.5
    && (f.notes.NotesOmitted? ==> r.notes == previous)
    && (f.notes.NotesNull? ==> r.notes == None)
    && (f.notes.NotesText? ==> r.notes == Some(f.notes.text))
  }

  /** Two rows that carry the same values and agree on id and timestamps
      are the same row: an assignment that changes nothing leaves the row
      as it was. */
  lemma CarriesUnique(a: Report, b: Report, f: Fields, previous: Option<string>)
    requires Carries(a, f, previous) && Carries(b, f, previous)
    requires a.id == b.id && a.createdAt == b.createdAt && a.updatedAt == b.updatedAt
    ensures a == b
  {
    assert a.fineCents == b.fineCents;
  }

  /** An assignment changes nothing exactly when the row already holds
      the values: the model's "not dirty". */
  lemma AssignNoChange(row: Report, f: Fields)
    ensures Assign(row, f) == row <==> Carries(row, f, row.notes)
  {
    if Carries(row, f, row.notes) {
      CarriesUnique(Assign(row, f), row, f, row.notes);
    }
  }

  /** `LibraryReport::create`: a new row with the next id, both timestamps
      set to `now`. Fails without writing when a value does not fit its
      column or the period is already taken. */
  function Create(s: Store, f: Fields, now: nat): (r: Result<Written>)
    requires Valid(s) && s.clock <= now
    ensures r.Err? <==> !FieldsFit(f) || PeriodTaken(s, f.year, f.month, 0)
    ensures r.Err? ==> r.error == (if !FieldsFit(f) then OutOfRange else Duplicate)
    ensures r.Ok? ==>
      var row := r.value.report;
      && Valid(r.value.store)
      && row.id !in s.rows
      && r.value.store.rows == s.rows[row.id := row]
      && Carries(row, f, None)
      && row.createdAt == now && row.updatedAt == now
  {
    if !FieldsFit(f) then
      Err(OutOfRange)
    else if PeriodTaken(s, f.year, f.month, 0) then
      Err(Duplicate)
    else
      var blank := Report(s.nextId, 0, 0, 0, 0, 0, 0, 0, None, now, now);
      var row := Assign(blank, f);
      Ok(Written(Store(s.rows[row.id := row], s.nextId + 1, now), row))
  }

  /** `$report->update(...)`: replaces the validated attributes of one row.
      As with any model save, a write that changes nothing leaves the row,
      `updated_at` included, as it was. */
  function Update(s: Store, id: nat, f: Fields, now: nat): (r: Result<Written>)
    requires Valid(s) && s.clock <= now
    ensures r.Err? <==>
      id !in s.rows || !FieldsFit(f) || PeriodTaken(s, f.year, f.month, id)
    ensures r.Err? ==>
      r.error == (if id !in s.rows then NotFound
                  else if !FieldsFit(f) then OutOfRange
                  else Duplicate)
    ensures r.Ok? ==>
      var row := r.value.report;
      var before := s.rows[id];
      && Valid(r.value.store)
      && row.id == id
      && r.value.store.rows == s.rows[id := row]
      && Carries(row, f, before.notes)
      && row.createdAt == before.createdAt
      && (row == before || row.updatedAt == now)
    ensures r.Ok? && Carries(s.rows[id], f, s.rows[id].notes) ==>
      r.value.report == s.rows[id] && r.value.store == s
    ensures r.Ok? && !Carries(s.rows[id], f, s.rows[id].notes) ==>
      r.value.report.updatedAt == now
  {
    if id !in s.rows then
      Err(NotFound)
    else
      var before := s.rows[id];
      var row := Assign(before, f);
      AssignNoChange(before, f);
      if row == before then
        Ok(Written(s, before))
      else if !FieldsFit(f) then
        Err(OutOfRange)
      else if PeriodTaken(s, f.year, f.month, id) then
        Err(Duplicate)
      else
        var row' := row.(updatedAt := now);
        Ok(Written(Store(s.rows[id := row'], s.nextId, now), row'))
  }

  /** `$report->delete()`: removes one row for good. */
  function Delete(s: Store, id: nat): (r: Result<Store>)
    requires Valid(s)
    ensures r.Err? <==> id !in s.rows
    ensures r.Err? ==> r.error == NotFound
    ensures r.Ok? ==>
      && Valid(r.value)
      && r.value.rows.Keys == s.rows.Keys - {id}
      && (forall other :: other in r.value.rows ==> r.value.rows[other] == s.rows[other])
  {
    if id !in s.rows then Err(NotFound)
    else Ok(s.(rows := s.rows - {id}))
  }

  /** Route model binding: the row with that id, or not found. */
  function Get(s: Store, id: nat): (r: Result<Report>)
    ensures r.Ok? <==> id in s.rows
    ensures r.Ok? ==> r.value == s.rows[id]
    ensures r.Err? ==> r.error == NotFound
  {
    if id in s.rows then Ok(s.rows[id]) else Err(NotFound)
  }

  // ---------------------------------------------------------------------
  // Queries

  /** The rows with ids below `n`, in id order. */
  function RowsBelow(s: Store, n: nat): (rs: seq<Report>)
    requires Valid(s)
    ensures forall x :: x in rs ==> x.id < n && x.id in s.rows && s.rows[x.id] == x
    ensures forall id :: id in s.rows && id < n ==> s.rows[id] in rs
    ensures Distinct(rs)
  {
    if n == 0 then []
    else
      var prefix := RowsBelow(s, n - 1);
      if n - 1 in s.rows then prefix + [s.rows[n - 1]] else prefix
  }

  /** Every row, in id (that is, insertion) order. */
  function AllRows(s: Store): (rs: seq<Report>)
    requires Valid(s)
    ensures forall x :: x in rs <==> x in s.rows.Values
    ensures Distinct(rs)
  {
    var rs := RowsBelow(s, s.nextId);
    assert forall x :: x in s.rows.Values ==> x in rs by {
      forall x | x in s.rows.Values ensures x in rs {
        var id :| id in s.rows && s.rows[id] == x;
      }
    }
    rs
  }

  /** The `forYear` scope: the reports of one year, in the given order. */
  function InYear(rs: seq<Report>, year: int): (r: seq<Report>)
    ensures forall x :: x in r <==> x in rs && x.year == year
    ensures Distinct(rs) ==> Distinct(r)
  {
    if rs == [] then []
    else
      assert rs == [rs[0]] + rs[1..];
      (if rs[0].year == year then [rs[0]] else []) + InYear(rs[1..], year)
  }

  function MonthKey(r: Report): int { r.month }

  function NewestFirstKey(r: Report): int { -(r.createdAt as int) }

  /** `forYear($year)->orderBy('month')->get()`. */
  function ForYear(s: Store, year: int): (r: seq<Report>)
    requires Valid(s)
    ensures forall x :: x in r <==> x in s.rows.Values && x.year == year
    ensures forall i, j :: 0 <= i < j < |r| ==> r[i].month < r[j].month
  {
    var picked := InYear(AllRows(s), year);
    var r := Sort(picked, MonthKey);
    SameElements(r, picked);
    DistinctPermutation(r, picked);
    SortedPeriodsAscend(s, year, r);
    r
  }

  /** Distinct reports of one year, sorted by month, have strictly
      increasing months: the unique (year, month) index rules out ties. */
  lemma SortedPeriodsAscend(s: Store, year: int, r: seq<Report>)
    requires Valid(s) && Distinct(r) && SortedBy(r, MonthKey)
    requires forall x :: x in r ==> x in s.rows.Values && x.year == year
    ensures forall i, j :: 0 <= i < j < |r| ==> r[i].month < r[j].month
  {
    forall i, j | 0 <= i < j < |r| ensures r[i].month < r[j].month {
      assert MonthKey(r[i]) <= MonthKey(r[j]);
      assert r[i] in r && r[j] in r;
      var a :| a in s.rows && s.rows[a] == r[i];
      var b :| b in s.rows && s.rows[b] == r[j];
      assert a != b;
    }
  }

  /** In strictly increasing months, none below 1, the month at position
      `i` is at least `i + 1`. */
  lemma {:induction false} AscendingMonthsFloor(r: seq<Report>, i: nat)
    requires forall a, b :: 0 <= a < b < |r| ==> r[a].month < r[b].month
    requires forall a :: 0 <= a < |r| ==> 1 <= r[a].month
    requires i < |r|
    ensures r[i].month >= i + 1
  {
    if i > 0 {
      AscendingMonthsFloor(r, i - 1);
    }
  }

  /** Strictly increasing months within 1..12 leave room for twelve reports
      at most. */
  lemma AscendingMonthsBound(r: seq<Report>)
    requires forall i, j :: 0 <= i < j < |r| ==> r[i].month < r[j].month
    requires forall i :: 0 <= i < |r| ==> 1 <= r[i].month <= 12
    ensures |r| <= 12
  {
    if |r| > 0 {
      AscendingMonthsFloor(r, |r| - 1);
    }
  }

  /** A year lists at most one report per month, so at most twelve. */
  lemma ForYearAtMostTwelve(s: Store, year: int)
    requires Valid(s)
    ensures InDomain(s) ==> |ForYear(s, year)| <= 12
  {
    if !InDomain(s) {
      return;
    }
    var r := ForYear(s, year);
    forall i | 0 <= i < |r| ensures 1 <= r[i].month <= 12 {
      assert r[i] in r;
      var id :| id in s.rows && s.rows[id] == r[i];
    }
    AscendingMonthsBound(r);
  }

  /** Adds a year to a strictly descending list of distinct years. */
  function InsertYear(year: int, years: seq<int>): (r: seq<int>)
    requires forall i, j :: 0 <= i < j < |years| ==> years[i] > years[j]
    ensures forall i, j :: 0 <= i < j < |r| ==> r[i] > r[j]
    ensures forall y :: y in r <==> y == year || y in years
    ensures |r| > 0 && (r[0] == year || (|years| > 0 && r[0] == years[0]))
  {
    if years == [] || year > years[0] then [year] + years
    else if year == years[0] then years
    else [years[0]] + InsertYear(year, years[1..])
  }

  function YearsOf(rs: seq<Report>): (r: seq<int>)
    ensures forall i, j :: 0 <= i < j < |r| ==> r[i] > r[j]
    ensures forall y :: y in r <==> exists x :: x in rs && x.year == y
  {
    if rs == [] then []
    else
      assert rs == [rs[0]] + rs[1..];
      InsertYear(rs[0].year, YearsOf(rs[1..]))
  }

  /** `distinct()->orderBy('year', 'desc')->pluck('year')`: each year that
      has a report, once, newest first. */
  function AvailableYears(s: Store): (r: seq<int>)
    requires Valid(s)
    ensures forall i, j :: 0 <= i < j < |r| ==> r[i] > r[j]
    ensures forall y :: y in r <==> exists id :: id in s.rows && s.rows[id].year == y
  {
    var all := AllRows(s);
    var r := YearsOf(all);
    assert forall y :: y in r <==> exists id :: id in s.rows && s.rows[id].year == y by {
      forall y ensures y in r <==> exists id :: id in s.rows && s.rows[id].year == y {
        if y in r {
          var x :| x in all && x.year == y;
          assert s.rows[x.id] == x;
        }
        if exists id :: id in s.rows && s.rows[id].year == y {
          var id :| id in s.rows && s.rows[id].year == y;
          assert s.rows[id] in all;
        }
      }
    }
    r
  }

  /** `latest()->take($limit)->get()`: the most recently created reports,
      newest first. */
  function Recent(s: Store, limit: nat): (r: seq<Report>)
    requires Valid(s)
    ensures |r| <= limit
    ensures forall x :: x in r ==> x in s.rows.Values
    ensures Distinct(r)
    ensures forall i, j :: 0 <= i < j < |r| ==> r[i].createdAt >= r[j].createdAt
    ensures forall x, y :: x in s.rows.Values && x !in r && y in r ==> x.createdAt <= y.createdAt
    ensures |r| < limit ==> forall x :: x in s.rows.Values ==> x in r
  {
    var all := AllRows(s);
    var sorted := Sort(all, NewestFirstKey);
    DistinctPermutation(sorted, all);
    TakeNewest(all, sorted, limit);
    if |sorted| <= limit then sorted else sorted[..limit]
  }

  /** The first `limit` entries of a newest-first ordering are the newest
      ones: nothing left out is newer than anything kept. */
  lemma TakeNewest(all: seq<Report>, sorted: seq<Report>, limit: nat)
    requires multiset(sorted) == multiset(all)
    requires SortedBy(sorted, NewestFirstKey) && Distinct(sorted)
    ensures var r := if |sorted| <= limit then sorted else sorted[..limit];
      && |r| <= limit
      && Distinct(r)
      && (forall x :: x in r ==> x in all)
      && (forall i, j :: 0 <= i < j < |r| ==> r[i].createdAt >= r[j].createdAt)
      && (forall x, y :: x in all && x !in r && y in r ==> x.createdAt <= y.createdAt)
      && (|r| < limit ==> forall x :: x in all ==> x in r)
  {
    var r := if |sorted| <= limit then sorted else sorted[..limit];
    SameElements(sorted, all);
    forall x, y | x in all && x !in r && y in r
      ensures x.createdAt <= y.createdAt
    {
      assert x in sorted;
      var k :| 0 <= k < |sorted| && sorted[k] == x;
      var m :| 0 <= m < |r| && r[m] == y;
      assert sorted[m] == y;
      assert m < k;
      assert NewestFirstKey(sorted[m]) <= NewestFirstKey(sorted[k]);
    }
    forall i, j | 0 <= i < j < |r| ensures r[i].createdAt >= r[j].createdAt {
      assert NewestFirstKey(sorted[i]) <= NewestFirstKey(sorted[j]);
    }
  }

  // ---------------------------------------------------------------------
  // Properties across operations

  /** Reading back a created report gives exactly what was written. */
  lemma GetAfterCreate(s: Store, f: Fields, now: nat)
    requires Valid(s) && s.clock <= now
    requires Create(s, f, now).Ok?
    ensures var w := Create(s, f, now).value;
      Get(w.store, w.report.id) == Ok(w.report)
  {
  }

  /** A second create for the same period fails with `Duplicate`. */
  lemma CreateTwiceFails(s: Store, f: Fields, g: Fields, now: nat, later: nat)
    requires Valid(s) && s.clock <= now <= later
    requires Create(s, f, now).Ok?
    requires g.year == f.year && g.month == f.month && FieldsFit(g)
    ensures Create(Create(s, f, now).value.store, g, later) == Err(Duplicate)
  {
    var w := Create(s, f, now).value;
    assert w.store.rows[w.report.id] == w.report;
    assert PeriodTaken(w.store, g.year, g.month, 0);
  }

  /** After a delete the id is gone and the year listing no longer holds the
      report; every other report of that year is still listed. */
  lemma DeleteRemovesFromListing(s: Store, id: nat)
    requires Valid(s) && id in s.rows
    ensures var s' := Delete(s, id).value;
      && Get(s', id) == Err(NotFound)
      && s.rows[id] !in ForYear(s', s.rows[id].year)
      && forall x :: x in ForYear(s, s.rows[id].year) && x != s.rows[id] ==>
           x in ForYear(s', s.rows[id].year)
  {
    var s' := Delete(s, id).value;
    var gone := s.rows[id];
    assert forall k :: k in s'.rows ==> s'.rows[k].id != gone.id;
    forall x | x in ForYear(s, gone.year) && x != gone
      ensures x in ForYear(s', gone.year)
    {
      var k :| k in s.rows && s.rows[k] == x;
      assert k != id;
      assert s'.rows[k] == x;
    }
  }

  /** The update scenario: changing `new_books` moves it to the new value,
      keeps `created_at`, and `updated_at` never goes backwards. */
  lemma UpdateScenario(s: Store, id: nat, f: Fields, now: nat)
    requires Valid(s) && s.clock <= now && id in s.rows
    requires Update(s, id, f, now).Ok?
    ensures var row := Update(s, id, f, now).value.report;
      && Get(Update(s, id, f, now).value.store, id) == Ok(row)
      && row.newBooks == f.newBooks
      && row.createdAt == s.rows[id].createdAt
      && row.updatedAt >= s.rows[id].updatedAt
  {
  }

  /** Updating one report leaves every other report untouched. */
  lemma UpdateLeavesOthers(s: Store, id: nat, f: Fields, now: nat, other: nat)
    requires Valid(s) && s.clock <= now
    requires Update(s, id, f, now).Ok? && other in s.rows && other != id
    ensures Update(s, id, f, now).value.store.rows[other] == s.rows[other]
  {
  }

  /** Validated writes keep every row inside the validator's ranges. */
  lemma WritesPreserveDomain(s: Store, f: Fields, id: nat, now: nat)
    requires Valid(s) && s.clock <= now
    ensures InDomain(s) && FieldsInDomain(f) && Create(s, f, now).Ok? ==>
      InDomain(Create(s, f, now).value.store)
    ensures InDomain(s) && FieldsInDomain(f) && Update(s, id, f, now).Ok? ==>
      InDomain(Update(s, id, f, now).value.store)
  {
  }
}

=== FILE: validation.dfy ===
/** The field rules of the update request:

      month             required | integer | between:1,12
      year              required | integer | between:2000,2100
      four counts       required | integer | min:0
      fine_collections  required | numeric | min:0
      notes             nullable | string  | max:1000

    Request input is a map from key to value; a key that is not in the map
    was not sent. A value is a number, a string that reads as a number
    (kept together with its text, since the `string` rule sees the text
    and the numeric rules the number), another string, or null. */
module Validation {
  import opened Domain

  datatype Value = Number(q: real) | NumericText(s: string, q: real) | Text(s: string) | Null

  /** What the numeric rules accept as a number. */
  predicate IsNumber(v: Value) {
    v.Number? || v.NumericText?
  }

  /** What the `string` rule accepts. */
  predicate IsString(v: Value) {
    v.Text? || v.NumericText?
  }

  type Input = map<string, Value>

  /** The rule a field failed first, which is also the key of the first
      message reported for it. */
  datatype Rule = Required | Integer | Numeric | Between | Min | String | Max

  /** The fields that carry rules; these are also the mass-assignable ones. */
  datatype Field =
    | MonthField | YearField | NewBooksField | BooksBorrowedField
    | NewMembersField | TotalVisitorsField | FineField | NotesField

  /** The request key a field is sent under. */
  function Key(f: Field): string {
    match f
    case MonthField => "month"
    case YearField => "year"
    case NewBooksField => "new_books"
    case BooksBorrowedField => "books_borrowed"
    case NewMembersField => "new_members"
    case TotalVisitorsField => "total_visitors"
    case FineField => "fine_collections"
    case NotesField => "notes"
  }

  /** The fields whose rules start with `required`: all but the notes. */
  const RequiredFields: set<Field> := {
    MonthField, YearField, NewBooksField, BooksBorrowedField,
    NewMembersField, TotalVisitorsField, FineField}

  const AllFields: set<Field> := RequiredFields + {NotesField}

  lemma InAllFields(f: Field)
    ensures f in AllFields
  {
    match f
    case MonthField =>
    case YearField =>
    case NewBooksField =>
    case BooksBorrowedField =>
    case NewMembersField =>
    case TotalVisitorsField =>
    case FineField =>
    case NotesField =>
  }

  function Lookup(input: Input, f: Field): Option<Value> {
    if Key(f) in input then Some(input[Key(f)]) else None
  }

  /** A string that is empty once surrounding whitespace is trimmed. */
  predicate Blank(s: string) {
    forall i :: 0 <= i < |s| ==> s[i] in {' ', '\t', '\n', '\r', '\0', '\U{000B}'}
  }

  /** The `required` rule: sent, not null, not a blank string. */
  predicate Present(v: Option<Value>) {
    v.Some? && !v.value.Null? && !(IsString(v.value) && Blank(v.value.s))
  }

  predicate IsIntegral(q: real) {
    q.Floor as real == q
  }

  // ---------------------------------------------------------------------
  // What each rule set accepts, stated declaratively

  predicate IntegerBetween(v: Option<Value>, lo: int, hi: int) {
    Present(v) && IsNumber(v.value) && IsIntegral(v.value.q) && lo as real <= v.value.q <= hi as real
  }

  predicate NonNegativeInteger(v: Option<Value>) {
    Present(v) && IsNumber(v.value) && IsIntegral(v.value.q) && v.value.q >= 0.0
  }

  predicate NonNegativeNumber(v: Option<Value>) {
    Present(v) && IsNumber(v.value) && v.value.q >= 0.0
  }

  /** A blank string skips the rules that are not implicit, `string` and
      `max` among them, so a blank note passes whatever its length. */
  predicate NotesAcceptable(v: Option<Value>) {
    || v.None? || v.value.Null?
    || (IsString(v.value) && (Blank(v.value.s) || |v.value.s| <= MaxNotesLength))
  }

  predicate FieldAccepted(input: Input, f: Field) {
    var v := Lookup(input, f);
    match f
    case MonthField => IntegerBetween(v, 1, 12)
    case YearField => IntegerBetween(v, 2000, 2100)
    case FineField => NonNegativeNumber(v)
    case NotesField => NotesAcceptable(v)
    case _ => NonNegativeInteger(v)
  }

  /** Every field passes its rules. */
  predicate Acceptable(input: Input) {
    && FieldAccepted(input, MonthField) && FieldAccepted(input, YearField)
    && FieldAccepted(input, NewBooksField) && FieldAccepted(input, BooksBorrowedField)
    && FieldAccepted(input, NewMembersField) && FieldAccepted(input, TotalVisitorsField)
    && FieldAccepted(input, FineField) && FieldAccepted(input, NotesField)
  }

  // ---------------------------------------------------------------------
  // The rules, applied in order

  function CheckIntegerBetween(v: Option<Value>, lo: int, hi: int): (r: Option<Rule>)
    ensures r.None? <==> IntegerBetween(v, lo, hi)
    ensures r == Some(Required) <==> !Present(v)
    ensures r == Some(Integer) <==> Present(v) && !(IsNumber(v.value) && IsIntegral(v.value.q))
    ensures r == Some(Between) <==>
      Present(v) && IsNumber(v.value) && IsIntegral(v.value.q) && !(lo as real <= v.value.q <= hi as real)
    ensures r.Some? ==> r.value in {Required, Integer, Between}
  {
    if !Present(v) then Some(Required)
    else if !(IsNumber(v.value) && IsIntegral(v.value.q)) then Some(Integer)
    else if !(lo as real <= v.value.q <= hi as real) then Some(Between)
    else None
  }

  function CheckCount(v: Option<Value>): (r: Option<Rule>)
    ensures r.None? <==> NonNegativeInteger(v)
    ensures r == Some(Required) <==> !Present(v)
    ensures r == Some(Integer) <==> Present(v) && !(IsNumber(v.value) && IsIntegral(v.value.q))
    ensures r == Some(Min) <==> Present(v) && IsNumber(v.value) && IsIntegral(v.value.q) && v.value.q < 0.0
    ensures r.Some? ==> r.value in {Required, Integer, Min}
  {
    if !Present(v) then Some(Required)
    else if !(IsNumber(v.value) && IsIntegral(v.value.q)) then Some(Integer)
    else if v.value.q < 0.0 then Some(Min)
    else None
  }

  function CheckAmount(v: Option<Value>): (r: Option<Rule>)
    ensures r.None? <==> NonNegativeNumber(v)
    ensures r == Some(Required) <==> !Present(v)
    ensures r == Some(Numeric) <==> Present(v) && !IsNumber(v.value)
    ensures r == Some(Min) <==> Present(v) && IsNumber(v.value) && v.value.q < 0.0
    ensures r.Some? ==> r.value in {Required, Numeric, Min}
  {
    if !Present(v) then Some(Required)
    else if !IsNumber(v.value) then Some(Numeric)
    else if v.value.q < 0.0 then Some(Min)
    else None
  }

  /** `nullable` lets an absent or null value through without further
      checks, and a blank string is not checked against `string` or `max`. */
  function CheckNotes(v: Option<Value>): (r: Option<Rule>)
    ensures r.None? <==> NotesAcceptable(v)
    ensures r.Some? ==> v.Some? && !v.value.Null? && !(IsString(v.value) && Blank(v.value.s))
    ensures r == Some(String) <==> v.Some? && !v.value.Null? && !IsString(v.value)
    ensures r == Some(Max) <==>
      v.Some? && IsString(v.value) && !Blank(v.value.s) && |v.value.s| > MaxNotesLength
    ensures r.Some? ==> r.value in {String, Max}
  {
    if v.None? || v.value.Null? then None
    else if IsString(v.value) && Blank(v.value.s) then None
    else if !IsString(v.value) then Some(String)
    else if |v.value.s| > MaxNotesLength then Some(Max)
    else None
  }

  function CheckField(input: Input, f: Field): (r: Option<Rule>)
    ensures r.None? <==> FieldAccepted(input, f)
    ensures f in RequiredFields ==> (r == Some(Required) <==> !Present(Lookup(input, f)))
  {
    var v := Lookup(input, f);
    match f
    case MonthField => CheckIntegerBetween(v, 1, 12)
    case YearField => CheckIntegerBetween(v, 2000, 2100)
    case FineField => CheckAmount(v)
    case NotesField => CheckNotes(v)
    case _ => CheckCount(v)
  }

  datatype Checked = Accepted(fields: Fields) | Rejected(errors: map<Field, Rule>)

  /** The error bag: for each field that fails, the rule it failed first. */
  function ErrorsOf(input: Input): (errors: map<Field, Rule>)
    ensures forall f :: f in errors <==> !FieldAccepted(input, f)
    ensures forall f :: f in errors ==> Some(errors[f]) == CheckField(input, f)
    ensures forall f :: f in errors && f in RequiredFields ==>
      (errors[f] == Required <==> !Present(Lookup(input, f)))
  {
    assert forall f: Field :: f in AllFields by {
      forall f: Field ensures f in AllFields {
        InAllFields(f);
      }
    }
    map f | f in AllFields && CheckField(input, f).Some? :: CheckField(input, f).value
  }

  function IntegerOf(v: Option<Value>): int
    requires v.Some? && IsNumber(v.value)
  {
    v.value.q.Floor
  }

  /** What an accepted `notes` value writes. A blank note is written as
      null, as the request's empty-string conversion makes it. */
  function NotesOf(v: Option<Value>): NotesChange {
    if v.None? then NotesOmitted
    else if IsString(v.value) && !Blank(v.value.s) then NotesText(v.value.s)
    else NotesNull
  }

  /** The number sent for a field that passed a numeric rule. */
  function NumberAt(input: Input, f: Field): real
    requires Lookup(input, f).Some? && IsNumber(Lookup(input, f).value)
  {
    Lookup(input, f).value.q
  }

  /** The validated attributes of an acceptable payload. */
  function FieldsOf(input: Input): (r: Fields)
    requires Acceptable(input)
    ensures FieldsInDomain(r)
    ensures r.month as real == NumberAt(input, MonthField)
    ensures r.year as real == NumberAt(input, YearField)
    ensures r.newBooks as real == NumberAt(input, NewBooksField)
    ensures r.booksBorrowed as real == NumberAt(input, BooksBorrowedField)
    ensures r.newMembers as real == NumberAt(input, NewMembersField)
    ensures r.totalVisitors as real == NumberAt(input, TotalVisitorsField)
    ensures r.fine == NumberAt(input, FineField)
    ensures r.notes == NotesOf(Lookup(input, NotesField))
  {
    Fields(
      IntegerOf(Lookup(input, MonthField)),
      IntegerOf(Lookup(input, YearField)),
      IntegerOf(Lookup(input, NewBooksField)),
      IntegerOf(Lookup(input, BooksBorrowedField)),
      IntegerOf(Lookup(input, NewMembersField)),
      IntegerOf(Lookup(input, TotalVisitorsField)),
      NumberAt(input, FineField),
      NotesOf(Lookup(input, NotesField)))
  }

  /** The request's validation: either every field passes and the result
      carries exactly the sent values, or the error bag has one entry for
      each failing field and for no other. */
  function Validate(input: Input): (r: Checked)
    ensures r.Accepted? <==> Acceptable(input)
    ensures r.Rejected? ==> forall f :: f in r.errors <==> !FieldAccepted(input, f)
    ensures r.Rejected? ==> forall f :: f in r.errors ==> Some(r.errors[f]) == CheckField(input, f)
    ensures r.Rejected? ==>
      forall f :: f in r.errors && f in RequiredFields ==>
        (r.errors[f] == Required <==> !Present(Lookup(input, f)))
    ensures r.Accepted? ==> r.fields == FieldsOf(input)
  {
    var errors := ErrorsOf(input);
    if errors == map[] then
      assert forall f :: f !in errors;
      Accepted(FieldsOf(input))
    else
      assert exists f :: f in errors;
      Rejected(errors)
  }

  /** Keys without a rule never reach the result: sending `id`,
      `created_at` or any other extra key changes nothing. */
  lemma ValidateIgnoresUnruledKeys(input: Input, key: string, v: Value)
    requires forall f: Field :: Key(f) != key
    ensures Validate(input[key := v]) == Validate(input)
  {
    var input' := input[key := v];
    LookupsUnchanged(input, key, v);
    assert ErrorsOf(input') == ErrorsOf(input) by {
      assert forall f :: CheckField(input', f) == CheckField(input, f);
    }
    if Acceptable(input) {
      assert FieldsOf(input') == FieldsOf(input);
    }
  }

  lemma LookupsUnchanged(input: Input, key: string, v: Value)
    requires forall f: Field :: Key(f) != key
    ensures forall f :: Lookup(input[key := v], f) == Lookup(input, f)
  {
    forall f: Field ensures Lookup(input[key := v], f) == Lookup(input, f) {
      assert Key(f) != key;
    }
  }

  /** An empty submission fails `required` on each of the seven required
      fields and on nothing else. */
  lemma EmptyInputRejected()
    ensures Validate(map[]) == Rejected(map f | f in RequiredFields :: Required)
  {
    var expected := map f | f in RequiredFields :: Required;
    assert !FieldAccepted(map[], MonthField);
    assert forall f :: f in ErrorsOf(map[]) <==> f in RequiredFields;
    assert ErrorsOf(map[]) == expected;
  }

  /** The seven required fields all sent as the string "invalid": each of
      them is rejected by its type rule, `integer` or `numeric`. */
  lemma NonNumericInputRejected()
    ensures var input := map[
        "month" := Text("invalid"), "year" := Text("invalid"),
        "new_books" := Text("invalid"), "books_borrowed" := Text("invalid"),
        "new_members" := Text("invalid"), "total_visitors" := Text("invalid"),
        "fine_collections" := Text("invalid")];
      && Validate(input).Rejected?
      && Validate(input).errors.Keys == RequiredFields
      && Validate(input).errors[MonthField] == Integer
      && Validate(input).errors[FineField] == Numeric
  {
    var input := map[
        "month" := Text("invalid"), "year" := Text("invalid"),
        "new_books" := Text("invalid"), "books_borrowed" := Text("invalid"),
        "new_members" := Text("invalid"), "total_visitors" := Text("invalid"),
        "fine_collections" := Text("invalid")];
    assert !Blank("invalid") by {
      assert "invalid"[0] == 'i';
    }
    assert forall f :: f in RequiredFields ==> Lookup(input, f) == Some(Text("invalid"));
    assert Lookup(input, NotesField) == None;
    assert !FieldAccepted(input, MonthField);
  }

  /** A note typed as a number is still a string to the `string` rule:
      it passes and is written as its text. */
  lemma NumericNoteAccepted()
    ensures CheckNotes(Some(NumericText("42", 42.0))) == None
    ensures NotesOf(Some(NumericText("42", 42.0))) == NotesText("42")
  {
    assert !Blank("42") by {
      assert "42"[0] == '4';
    }
  }

  /** A sample of the accepted shape: the request from the create test. */
  lemma SampleInputAccepted()
    ensures var input := map[
        "month" := Number(3.0), "year" := Number(2024.0),
        "new_books" := Number(25.0), "books_borrowed" := Number(150.0),
        "new_members" := Number(10.0), "total_visitors" := Number(500.0),
        "fine_collections" := Number(125.5),
        "notes" := Text("Great month for library activities")];
      Validate(input) == Accepted(Fields(3, 2024, 25, 150, 10, 500, 125.5,
        NotesText("Great month for library activities")))
  {
    var input := map[
        "month" := Number(3.0), "year" := Number(2024.0),
        "new_books" := Number(25.0), "books_borrowed" := Number(150.0),
        "new_members" := Number(10.0), "total_visitors" := Number(500.0),
        "fine_collections" := Number(125.5),
        "notes" := Text("Great month for library activities")];
    var notes := "Great month for library activities";
    assert !Blank(notes) by {
      assert notes[0] == 'G';
    }
    assert Lookup(input, MonthField) == Some(Number(3.0));
    assert Lookup(input, YearField) == Some(Number(2024.0));
    assert Lookup(input, NewBooksField) == Some(Number(25.0));
    assert Lookup(input, BooksBorrowedField) == Some(Number(150.0));
    assert Lookup(input, NewMembersField) == Some(Number(10.0));
    assert Lookup(input, TotalVisitorsField) == Some(Number(500.0));
    assert Lookup(input, FineField) == Some(Number(125.5));
    assert Lookup(input, NotesField) == Some(Text(notes));
    assert Acceptable(input);
  }
}
